=== FILE: README.md ===
# OpenVNet flow computation, modelled in Dafny

This project models the part of the OpenVNet OpenFlow controller that works
out which forwarding rules a switch (a *datapath*) should hold. It covers:

- **Cookie composition**. Every rule carries a 64-bit cookie, the OR of a
  type field, a tag field and an entity id. An id is read back by masking
  with `COOKIE_ID_MASK`. The layout constants (`COOKIE_TYPE_CONTRACK`,
  `COOKIE_TYPE_DP_ROUTE_LINK`, `COOKIE_TAG_SHIFT`, `COOKIE_ID_MASK`) are a
  `CookieLayout` parameter, together with the mask of the type field.
  The code assumes the following about the layout and never checks it, so
  these appear only as preconditions of the round-trip and separation
  lemmas:
  - `Cookies.Disjoint` states that neither type and neither tag overlaps
    the id field, and that neither tag overlaps the connection-tracking
    type.
  - `Cookies.TypeFieldSeparate` states that both types lie inside the type
    field and differ, and that the tags and the id field stay outside it.
    This is what keeps a route-link cookie apart from a connection or
    catch-flow cookie.
  - `Cookies.Fits` states that an id lies inside the id field.
- **Connection tracking** (`Connections::Base`, `ConnectionManager`). This
  covers:
  - the egress/ingress rule pair opened for a new TCP or UDP connection;
  - the per-interface catch-flows that send a connection's first packet to
    the controller;
  - deleting rules by cookie.
- **The virtual-network installer** (`Networks::Virtual`). It builds:
  - the static tunnel, classifier and broadcast rules;
  - the flood rule;
  - the two ovs-ofctl ARP learn rules, modelled as structured `LearnFlow`
    records rather than text.
- **The host route-link stitcher** (`Datapaths::Host#flows_for_dp_route_link`).
- **The `Datapath` actor, sequential part**. This covers:
  - the `dpid_s` string;
  - the `create_switch` bring-up: default flows, record lookup, then either
    stuck or snapshot handed to every manager and the switch made ready;
  - the immutable `DatapathInfo` snapshot;
  - how `add_flow`, `add_flows`, `del_cookie`, `send_message` and
    `send_packet_out` turn into controller messages.

A datapath is a state record with append-only logs:
- `sent` holds the messages handed to the controller;
- `ovsFlows` holds the learn rules handed to ovs-ofctl;
- `events` records the bring-up steps.

Managers are pure functions that return the list of `DpInfo.Request`s they
make. `DatapathActor.ApplyAll` carries those requests out in order, as the
actor's mailbox does. The `Scenarios` module states what each manager
operation leaves in the message log. Ruby's `Hash#merge` is Dafny's
right-biased map union `+`. A `nil` that Ruby passes around is an `Option`.
An exception is a `Result` failure.

Modules and files:

| file | module | models |
|---|---|---|
| wrappers.dfy | `Wrappers` | `Option`, `Result` |
| openflow.dfy | `OpenFlow` | tables, ports, match fields, metadata, `Flow`, `LearnFlow`, packet-in, cookie/mask selection |
| cookies.dfy | `Cookies` | cookie layout, the two connection tags |
| connections.dfy | `Connections` | `Connections::Base` |
| connection_manager.dfy | `ConnectionManager` | `ConnectionManager` |
| dpinfo.dfy | `DpInfo` | the requests a manager hands to its datapath |
| dpid.dfy | `Dpid` | `"0x%016x" % dpid` and its inverse |
| datapath.dfy | `DatapathActor` | `Datapath`, `DatapathInfo` |
| networks.dfy | `Networks` | `Networks::Virtual` |
| host.dfy | `HostDatapath` | `Datapaths::Host` |
| scenarios.dfy | `Scenarios` | manager requests as seen in the message log |

## Model

| member | source | states |
|---|---|---|
| Cookies.IdOf | vnet/lib/vnet/openflow/connections/base.rb:22 | The id read out of any cookie has no bit outside `COOKIE_ID_MASK`. |
| Cookies.TagsDiffer | vnet/lib/vnet/openflow/connection_manager.rb:8-9 | The catch-flow tag and the ingress-connection tag share no bit, so they differ. |
| Connections.Cookie | vnet/lib/vnet/openflow/connections/base.rb:13-15 | If the fields are disjoint and the id fits, the id field of the connection cookie is the interface id. |
| Connections.CookieInjective | vnet/lib/vnet/openflow/connections/base.rb:13-15 | If the fields are disjoint and both ids fit, different interface ids give different connection cookies. |
| Connections.CookieHasIngressTag | vnet/lib/vnet/openflow/connections/base.rb:14 | Every connection cookie has the ingress-connection tag bit set. |
| Connections.Open | vnet/lib/vnet/openflow/connections/base.rb:21-51 | `open` succeeds exactly when both matchers succeed. An egress-matcher error comes first. On success it returns exactly two rules, egress then ingress, each with its table, priority, next table, cookie and idle timeout (550, 600). Each rule's match is the base fields merged with what its matcher returned. The keys are exactly the matcher's keys plus the four base keys, every matcher field wins, and each address field the matcher leaves alone keeps its base value. Egress uses the packet's MAC source and IPv4 addresses; ingress uses them reversed. `eth_type` is the matcher's override, else the message's for egress and IPv4 for ingress. Neither rule has actions or writes metadata. The egress rule matches no metadata; the ingress rule matches exactly the packet-in's interface id in metadata. |
| Connections.BaseOpenFails | vnet/lib/vnet/openflow/connections/base.rb:53-59 | The base variant always fails with `NotImplementedError("match_egress")` and never yields a partial list. |
| Connections.OpenCookieCarriesInterface | vnet/lib/vnet/openflow/connections/base.rb:22-48 | Both rules carry the same cookie. Its id field is the id field of the packet-in's cookie. |
| Connections.OpenCookieIndependentOfTuple | vnet/lib/vnet/openflow/connections/base.rb:22-48 | Two packet-ins with the same id bits get the same cookie on every rule, whatever their addresses, ports or variant. |
| Connections.EgressExpiresFirst | vnet/lib/vnet/openflow/connections/base.rb:10-11 | The egress rule's idle timeout is strictly shorter than the ingress rule's. |
| Connections.OpenReversesDirection | vnet/lib/vnet/openflow/connections/base.rb:28-45 | For a variant whose matchers set none of `eth_src`, `eth_dst`, `ipv4_src` and `ipv4_dst`, the ingress rule matches the reverse direction. Its `eth_dst` is the egress rule's `eth_src`, and its IPv4 source and destination are the egress rule's swapped. |
| ConnectionManager.CatchFlowCookie | vnet/lib/vnet/openflow/connection_manager.rb:15-17 | If the fields are disjoint and the id fits, the id field of the catch-flow cookie is the interface id. |
| ConnectionManager.CatchFlowCookieInjective | vnet/lib/vnet/openflow/connection_manager.rb:15-17 | If the fields are disjoint and both ids fit, different interface ids give different catch-flow cookies. |
| ConnectionManager.CatchFlowCookieMissesIngressTag | vnet/lib/vnet/openflow/connection_manager.rb:16 | If the fields are disjoint and the id fits, the catch-flow cookie does not have the ingress-connection tag bit. |
| ConnectionManager.CatchFlowNeverConnection | vnet/lib/vnet/openflow/connection_manager.rb:8-17 | If the fields are disjoint and the catch-flow id fits, the catch-flow cookie equals no connection cookie, whatever the other interface is. |
| ConnectionManager.CatchNewEgress | vnet/lib/vnet/openflow/connection_manager.rb:19-38 | It makes no request exactly when the interface has no security groups. Otherwise it makes one `add_flows` with two catch-flows, TCP then UDP. Each is in the egress-filter table at priority 20, matches the interface MAC with IPv4, outputs to the controller and carries the catch-flow cookie. Each matches exactly `eth_src`, `eth_type` and `ip_proto`, with no idle timeout, no next table and no metadata match or write. |
| ConnectionManager.RemoveCatchNewEgress | vnet/lib/vnet/openflow/connection_manager.rb:40-42 | One delete with the default mask. Its cookie is the catch-flow cookie, and the cookie's id field is the interface. |
| ConnectionManager.CloseConnections | vnet/lib/vnet/openflow/connection_manager.rb:44-47 | One delete with the default mask. Its cookie is the connection cookie, and the cookie's id field is the interface. |
| ConnectionManager.OpenConnection | vnet/lib/vnet/openflow/connection_manager.rb:49-60 | TCP uses the TCP variant and UDP the UDP variant. Any other protocol submits `nil` flows. Success matches the chosen variant's success, and every success ends with exactly one packet-out to `OFPP_TABLE`, after the flows. |
| ConnectionManager.CatchFlowOpensConnection | vnet/lib/vnet/openflow/connection_manager.rb:15-17 | A packet-in carrying interface i's catch-flow cookie opens rules that all carry interface i's connection cookie. |
| DatapathActor.NewDatapathInfo | vnet/lib/vnet/openflow/datapath.rb:18-27 | The snapshot copies id, uuid, display name, segment id and IPv4 address verbatim from the record, and keeps the record. |
| DatapathActor.ManagerIndex | vnet/lib/vnet/openflow/datapath.rb:204-211 | Every one of the eight managers is in the notification order. |
| DatapathActor.NewDatapath | vnet/lib/vnet/openflow/datapath.rb:61-82 | A new datapath keeps the dpid it was given, has not been brought up, has no record and no snapshot, and has sent nothing. |
| DatapathActor.DatapathId | vnet/lib/vnet/openflow/datapath.rb:88-90 | `datapath_id` is present exactly when a record is held, and then it is the record's id. |
| DatapathActor.InfoEvents | vnet/lib/vnet/openflow/datapath.rb:201-212 | One `set_datapath_info` per manager, in the listed order, all with the same snapshot. |
| DatapathActor.CreateSwitch | vnet/lib/vnet/openflow/datapath.rb:101-116 | Default flows come first, and earlier history is kept. The switch becomes ready exactly when the `dpid_s` key is in the database. Without a record it stays building and nothing else happens. With a record, the snapshot made from it goes to all managers and only then is the switch ready. The default rules are an event, not log entries (see Left out). |
| DatapathActor.FlowModAdds | vnet/lib/vnet/openflow/datapath.rb:157-159 | One flow-mod-add per rule, in list order, each for this datapath. |
| DatapathActor.AddFlow | vnet/lib/vnet/openflow/datapath.rb:123-127 | Exactly one message is appended: a flow-mod-add for this dpid carrying the rule. Nothing else changes. |
| DatapathActor.AddFlows | vnet/lib/vnet/openflow/datapath.rb:154-161 | A `nil` or empty list changes nothing. Otherwise there is one flow-mod-add per rule, in order, after the earlier log. |
| DatapathActor.DelCookie | vnet/lib/vnet/openflow/datapath.rb:138-151 | Exactly one delete is appended, for all tables, any port and any group, with the given cookie and mask. The mask defaults to all ones. |
| DatapathActor.SendMessage | vnet/lib/vnet/openflow/datapath.rb:164-168 | Exactly one message is appended, carrying the payload for this dpid. |
| DatapathActor.SendPacketOut | vnet/lib/vnet/openflow/datapath.rb:171-175 | Exactly one packet-out is appended, carrying the packet and port for this dpid. |
| DatapathActor.AddOvsFlow | vnet/lib/vnet/openflow/datapath.rb:129-131 | The learn rule is appended to the ovs-ofctl log. The controller log is untouched. |
| DatapathActor.Apply | vnet/lib/vnet/openflow/datapath.rb:123-175 | Any single request only appends to the two logs, and every message it sends names this datapath. Only an ovs-ofctl request changes the ovs-ofctl log, and it sends no message. A delete without a mask uses the all-ones default. `add_flow` sends its rule, `add_flows` one flow-mod-add per rule in order (none for `nil`), `send_message` its payload and `send_packet_out` its packet and port, each addressed to this datapath. |
| DatapathActor.ApplyAll | vnet/lib/vnet/openflow/datapath.rb:123-175 | Any run of requests keeps the dpid, the bring-up state and the earlier log entries, and only appends messages addressed to this datapath. |
| DatapathActor.ApplyAllKeepsAddressing | vnet/lib/vnet/openflow/datapath.rb:123-175 | If every logged message names this datapath, that stays true after any requests. |
| DatapathActor.ApplyAllConcat | vnet/lib/vnet/openflow/datapath.rb:154-161 | Carrying out two batches one after the other is the same as carrying out their concatenation. |
| DatapathActor.MissingRecordStaysBuilding | vnet/lib/vnet/openflow/datapath.rb:106-111 | With no record for the dpid, a new datapath never becomes ready, has no snapshot and no `datapath_id`, and `switch_ready` never happens. |
| DatapathActor.ReadyAfterAllManagers | vnet/lib/vnet/openflow/datapath.rb:113-115 | Once ready: every manager received the snapshot the datapath holds; they received it after the default flows and before `switch_ready`; `switch_ready` is the last event and happens once; `datapath_id` is the record's id. |
| Dpid.Hex | vnet/lib/vnet/openflow/datapath.rb:63 | The `%x` rendering is non-empty and all lower-case hex digits. |
| Dpid.ZeroPad | vnet/lib/vnet/openflow/datapath.rb:63 | The `016` flag pads on the left with zeros to sixteen places and keeps the digits. |
| Dpid.HexRoundTrip | vnet/lib/vnet/openflow/datapath.rb:63 | Parsing the hex rendering gives back the number. |
| Dpid.LeadingZerosAreNoise | vnet/lib/vnet/openflow/datapath.rb:63 | Zero padding does not change the parsed value. |
| Dpid.HexLength | vnet/lib/vnet/openflow/datapath.rb:63 | The rendering has at most k digits exactly when the number is below 16^k. |
| Dpid.DpidString | vnet/lib/vnet/openflow/datapath.rb:63 | `dpid_s` is "0x" followed by at least sixteen lower-case hex digits, and it always parses back to the dpid. |
| Dpid.ZeroPadKeepsValue | vnet/lib/vnet/openflow/datapath.rb:63 | The zero padding keeps a hex string hex and keeps its value. |
| Dpid.DpidStringInjective | vnet/lib/vnet/openflow/datapath.rb:63 | Different dpids give different `dpid_s` strings, so the database key names one datapath. |
| Dpid.DpidStringLength | vnet/lib/vnet/openflow/datapath.rb:63 | `dpid_s` is exactly 18 characters long exactly when the dpid is below 2^64. |
| Networks.NetFlow | vnet/lib/vnet/openflow/networks/virtual.rb:11-13 | Every rule built with the network's `flow_options` carries the network's cookie. |
| Networks.StaticFlows | vnet/lib/vnet/openflow/networks/virtual.rb:19-47 | The static rules are 3, or 7 with a broadcast MAC. All carry the network's cookie and no idle timeout, and the first is the tunnel mapping rule. |
| Networks.CreateOvsFlowLearnArp | vnet/lib/vnet/openflow/networks/virtual.rb:71-87 | The learn rule sits in the virtual-source table with the given priority and the network cookie, matching the network's metadata. It learns into the virtual-destination table with idle timeout 36000, priority 35, the network cookie and the network metadata, and continues at route ingress. The match requires the `remote` flag; the learned rule carries the `local` and `vif` flags. Neither sets an interface id or a first value field. |
| Networks.Install | vnet/lib/vnet/openflow/networks/virtual.rb:15-54 | One `add_flows` with 3 rules, or 7 when a broadcast MAC is set, all with the network cookie. Then two learn rules: priority 83 with the `tun_id=0` match, then priority 81 loading the tunnel id. |
| Networks.TunnelFlowMapsNetwork | vnet/lib/vnet/openflow/networks/virtual.rb:20-23 | The tunnel rule is at table `TUNNEL_NETWORK_IDS`, priority 30. It matches only `tunnel_id = id | TUNNEL_FLAG_MASK`, writes exactly the network metadata and continues at source classification. It matches no metadata, has no actions and no idle timeout. |
| Networks.ClassifierFlowsRouteNetwork | vnet/lib/vnet/openflow/networks/virtual.rb:24-31 | The two classifier rules are at priority 40 and match the network metadata. Source goes to virtual-source and destination to virtual-destination. Each matches exactly the network metadata and no other field, has no actions, writes no metadata and has no idle timeout. |
| Networks.BroadcastFlowsAreTheFourCombinations | vnet/lib/vnet/openflow/networks/virtual.rb:33-46 | Without a broadcast MAC there are no broadcast rules. With one, they are exactly {source, destination classifier} x {`eth_dst`, `eth_src`} matching it, each at priority 90 with no action, no next table and no metadata match or write. |
| Networks.FloodActions | vnet/lib/vnet/openflow/networks/virtual.rb:57-61 | A port is output to exactly when some interface has that port number. Interfaces without a port add nothing. |
| Networks.UpdateFlows | vnet/lib/vnet/openflow/networks/virtual.rb:56-69 | Exactly one rule: local flood table, priority 1, network cookie and metadata, the flood actions, then the segment flood table. It matches only the network metadata, with no other field, writes no metadata and has no idle timeout. |
| Networks.FloodActionsConcat | vnet/lib/vnet/openflow/networks/virtual.rb:57-61 | The flood actions follow the interfaces' order: flooding a concatenation is flooding each part in turn. |
| Networks.FloodActionCount | vnet/lib/vnet/openflow/networks/virtual.rb:57-61 | There are exactly as many output actions as interfaces with a port. |
| HostDatapath.RouteLinkCookie | vnet/lib/vnet/openflow/datapaths/host.rb:31 | If the fields are disjoint and the id fits, the binding id is read back from the route-link cookie. |
| HostDatapath.FlowsForDpRouteLink | vnet/lib/vnet/openflow/datapaths/host.rb:13-32 | Exactly one rule is appended and the earlier rules are unchanged. The rule is at table `OUTPUT_DP_ROUTE_LINK_SRC`, priority 1. It matches the route-link id in the first value field, rewrites that field to the interface id, continues at `OUTPUT_DP_OVER_TUNNEL` and carries the route-link cookie. It matches no other field or metadata, has no actions and no idle timeout. |
| HostDatapath.RouteLinkCookieInjective | vnet/lib/vnet/openflow/datapaths/host.rb:31 | If the fields are disjoint and both binding ids fit, different bindings get different stitching-rule cookies. |
| HostDatapath.RouteLinkNeverConnection | vnet/lib/vnet/openflow/datapaths/host.rb:31 | If the type field is separate, no stitching-rule cookie equals any connection cookie. |
| HostDatapath.RouteLinkNeverCatchFlow | vnet/lib/vnet/openflow/datapaths/host.rb:31 | If the type field is separate, no stitching-rule cookie equals any catch-flow cookie. |
| OpenFlow.FullMaskSelectsExactly | vnet/lib/vnet/openflow/datapath.rb:138 | A delete with the default all-ones mask selects exactly the rules whose cookie equals the given one. |
| Scenarios.OpenConnectionMessages | vnet/lib/vnet/openflow/connection_manager.rb:49-60 | A packet-in adds the connection's flow-mods (two for TCP or UDP, none otherwise), then exactly one packet-out to `OFPP_TABLE`. Nothing goes to ovs-ofctl. |
| Scenarios.CloseConnectionsSelectsOnlyConnections | vnet/lib/vnet/openflow/connection_manager.rb:44-47 | `close_connections` sends one full-mask delete over all tables. It selects exactly this interface's connection rules: no other interface's and no catch-flow. |
| Scenarios.RemoveCatchSelectsOnlyCatchFlows | vnet/lib/vnet/openflow/connection_manager.rb:40-42 | `remove_catch_new_egress` sends one full-mask delete over all tables. It selects exactly this interface's catch-flows: no other interface's and never a connection rule. |
| Scenarios.CatchNewEgressMessages | vnet/lib/vnet/openflow/connection_manager.rb:19-38 | Without security groups the datapath is unchanged. With groups, exactly the TCP and then the UDP catch-flow are sent. |
| Scenarios.InstallMessages | vnet/lib/vnet/openflow/networks/virtual.rb:48-53 | `install` sends 3 or 7 flow-mods, the static rules in order, and hands the two learn rules to ovs-ofctl, 83 before 81. |
| Scenarios.UpdateFlowsMessages | vnet/lib/vnet/openflow/networks/virtual.rb:63-68 | `update_flows` sends exactly one flow-mod, the flood rule. |
| Scenarios.TcpFirstPacket | vnet/lib/vnet/openflow/connection_manager.rb:11-13 | A TCP packet-in sent up by interface i's catch-flow produces two flow-mods with i's connection cookie, timing out after 550 and 600, then the packet-out. |

## Left out

- Request forwarding. `DpInfo` is not part of this model. Its `add_flow`, `add_flows`, `del_cookie`, `send_message`, `send_packet_out` and `add_ovs_flow` are taken to forward to the `Datapath` methods of the same name; vnet/lib/vnet/openflow/datapath.rb:123-175 marks those methods "Use dp_info". `DatapathActor.Apply` is that forwarding.
- Logging. `warn` when no record is found (vnet/lib/vnet/openflow/datapath.rb:109), the `debug` in `close_connections` (vnet/lib/vnet/openflow/connection_manager.rb:45) and `log_new_connection` (vnet/lib/vnet/openflow/connection_manager.rb:51-54, 63-64) only write log text and are not modelled.
- Actor mechanics. Celluloid and `@controller.pass_task` asynchrony are not modelled. Each call is an ordered append to the datapath's message log, and a manager's requests are applied in the order it made them.
- Database access. `MW::Datapath[:dpid => dpid_s]` is a `map<string, DatapathRecord>` parameter. The record is looked up with `@dp_info.dpid_s` (vnet/lib/vnet/openflow/datapath.rb:106). `DpInfo#dpid_s` is defined outside the modelled files. It is taken to use the same `"0x%016x"` format as `Datapath#dpid_s` (vnet/lib/vnet/openflow/datapath.rb:63), so both are `Dpid.DpidString`. In `catch_new_egress`, `MW::Interface.batch...security_groups` is a security-group count parameter.
- Columns the model never reads. The `datapaths` columns `is_connected`, `created_at` and `updated_at` are not in `DatapathRecord`.
- The TCP and UDP variants. `Connections::TCP` and `Connections::UDP` are not part of this model. Their `match_egress`/`match_ingress` are parameters (`Connections.Matcher`), and only the base variant is concrete. Both variants are taken to inherit `Base.cookie`: `Base#cookie` calls `self.class.cookie` (vnet/lib/vnet/openflow/connections/base.rb:17-19), and `close_connections` deletes by `Connections::Base.cookie` (vnet/lib/vnet/openflow/connection_manager.rb:46).
- Cookie type field. The mask of the cookie type field is defined outside the modelled files. It is a layout parameter (`typeMask`) that is used only to state `Cookies.TypeFieldSeparate`.
- Unseen helpers and constants. `flow_create`, `Flow.create`, `md_create` and the table, cookie and tunnel constants are defined outside the modelled files:
  - tables are named roles rather than numbers;
  - metadata is a structured record rather than value and mask words;
  - the cookie layout and `TUNNEL_FLAG_MASK` are parameters.
- Flow options. `Flow.create`'s option hash with `:metadata` (the tunnel rule) is read as write-metadata.
- Empty actions. A `nil` action list and the `{}` action hash both become no actions.
- Learn-rule cookie. The learned rule's `cookie` is the method of `Networks::Base`, which is not part of this model. It is taken to be `@cookie`, which `flow_options` uses.
- ovs-ofctl text. The backslash-escaped command string is not modelled. `Networks.CreateOvsFlowLearnArp` builds a structured `LearnFlow`, with flags for the `tun_id=0,` match option and the tunnel-id load option.
- `network_type`. It only returns the symbol `:virtual` and is not modelled.
- The `ipv4_info` parameter of `catch_new_egress`. It is never read.
- Other actor methods. `add_tunnel`, `delete_tunnel`, `add_ovs_10_flow`, `datapath_batch`, `inspect` and `log_format` are ovs-ofctl I/O or text for humans.
- `Datapath#ipv4_address`. It only wraps the record's column in `IPAddr`.
- `DatapathInfo` and `IPAddr`. The address conversion is not modelled. The address is a `nat < 2^32` copied verbatim, so an out-of-range column value, which would make `IPAddr.new` raise, is not representable.
- DatapathActor.CreateSwitch: its contract says the controller log is unchanged. That holds only because the default pipeline rules that `Switch#create_default_flows` installs on this switch are modelled as the event `DefaultFlowsCreated`. They are not flow-mods in `sent`.
- The `Switch` default flows. `Switch#create_default_flows` and `Switch#switch_ready` are not part of this model. They appear in the bring-up only as the events `DefaultFlowsCreated` and `SwitchReady`.
- Iterating over bindings. `Datapaths::Host` is modelled for one binding, `flows_for_dp_route_link`. The loop over a datapath's bindings that calls it lives in `Datapaths::Base`, which is not part of this model.
- Teardown. `close_connections` deletes only the interface's connection rules (`Connections::Base.cookie(id)`). Its catch-flows are removed separately by `remove_catch_new_egress`. The model follows the code here: teardown can also be read as deleting the catch-flows, but the code does not do that.

=== FILE: connection_manager.dfy ===
/** `ConnectionManager`: installs per-interface catch-flows that punt new
    TCP/UDP egress traffic to the controller, opens connections on packet-in
    and deletes rules by cookie. Each operation returns the requests it hands
    to the datapath, in order. */
module ConnectionManager {
  import opened Wrappers
  import opened OpenFlow
  import opened Cookies
  import Connections
  import opened DpInfo

  /** `catch_flow_cookie(interface)`. */
  function CatchFlowCookie(L: CookieLayout, interfaceId: bv64): (c: bv64)
    ensures Disjoint(L) && Fits(L, interfaceId) ==> IdOf(L, c) == interfaceId
  {
    L.typeContrack | TagCatchFlow(L) | interfaceId
  }

  /** A catch-flow carries the catch-flow tag and never the
      ingress-connection tag, which every connection cookie carries; so no
      catch-flow cookie equals any connection cookie. */
  lemma CatchFlowNeverConnection(L: CookieLayout, i: bv64, j: bv64)
    requires Disjoint(L) && Fits(L, i)
    ensures CatchFlowCookie(L, i) != Connections.Cookie(L, j)
  {
    IngressTagNonZero(L);
    CatchFlowCookieMissesIngressTag(L, i);
    Connections.CookieHasIngressTag(L, j);
    Separated(CatchFlowCookie(L, i), Connections.Cookie(L, j), TagIngressConnection(L));
  }

  /** Distinct interfaces get distinct catch-flow cookies. */
  lemma CatchFlowCookieInjective(L: CookieLayout, a: bv64, b: bv64)
    requires Disjoint(L) && Fits(L, a) && Fits(L, b)
    requires CatchFlowCookie(L, a) == CatchFlowCookie(L, b)
    ensures a == b
  {
    assert IdOf(L, CatchFlowCookie(L, a)) == a;
    assert IdOf(L, CatchFlowCookie(L, b)) == b;
  }

  lemma CatchFlowCookieMissesIngressTag(L: CookieLayout, i: bv64)
    requires Disjoint(L) && Fits(L, i)
    ensures CatchFlowCookie(L, i) & TagIngressConnection(L) == 0
  {
    FieldsMissIngressTag(L, i, TagCatchFlow(L), TagIngressConnection(L));
  }

  /** The tags are passed in as plain values: stated over the shift
      expressions directly, the bit-vector goal is far harder for the solver. */
  lemma FieldsMissIngressTag(L: CookieLayout, i: bv64, c: bv64, g: bv64)
    requires c == TagCatchFlow(L) && g == TagIngressConnection(L)
    requires Disjoint(L) && Fits(L, i)
    ensures (L.typeContrack | c | i) & g == 0
  {
  }

  lemma IngressTagNonZero(L: CookieLayout)
    ensures TagIngressConnection(L) != 0
  {
  }

  lemma Separated(x: bv64, y: bv64, g: bv64)
    requires g != 0 && x & g == 0 && y & g == g
    ensures x != y
  {
  }

  /** One catch-flow: egress-filter table, priority 20, the interface's MAC
      as source, IPv4 and the given IP protocol, output to the controller. */
  function CatchFlow(L: CookieLayout, interfaceId: bv64, mac: MacAddr, ipProto: nat): Flow {
    Flow(
      InterfaceEgressFilter, 20,
      map[EthSrc := mac, EthType := EthTypeIpv4, IpProto := ipProto],
      NoMetadata, [Output(ControllerPort)], NoMetadata,
      CatchFlowCookie(L, interfaceId), None, None)
  }

  /** `catch_new_egress`: nothing for an interface without security groups;
      otherwise one `add_flows` with the TCP catch-flow, then the UDP one.
      `securityGroupCount` is the size of the interface's security-group
      list read from the database. */
  function CatchNewEgress(L: CookieLayout, interfaceId: bv64, mac: MacAddr, securityGroupCount: nat): (reqs: seq<Request>)
    ensures securityGroupCount == 0 <==> reqs == []
    ensures securityGroupCount > 0 ==>
      && |reqs| == 1 && reqs[0].AddFlowsReq? && reqs[0].flows.Some?
      && |reqs[0].flows.value| == 2
    ensures securityGroupCount > 0 ==>
      var flows := reqs[0].flows.value;
      && IpProto in flows[0].matchFields && flows[0].matchFields[IpProto] == IpProtoTcp
      && IpProto in flows[1].matchFields && flows[1].matchFields[IpProto] == IpProtoUdp
      && forall f | f in flows ::
           && f.table == InterfaceEgressFilter && f.priority == 20
           && EthSrc in f.matchFields && f.matchFields[EthSrc] == mac
           && EthType in f.matchFields && f.matchFields[EthType] == EthTypeIpv4
           && f.actions == [Output(ControllerPort)]
           && f.cookie == CatchFlowCookie(L, interfaceId)
    ensures securityGroupCount > 0 ==>
      forall f | f in reqs[0].flows.value ::
        && f.matchFields.Keys == {EthSrc, EthType, IpProto}
        && f.idleTimeout.None? && f.gotoTable.None?
        && f.matchMetadata == NoMetadata && f.writeMetadata == NoMetadata
  {
    if securityGroupCount == 0 then []
    else [AddFlowsReq(Some([CatchFlow(L, interfaceId, mac, IpProtoTcp), CatchFlow(L, interfaceId, mac, IpProtoUdp)]))]
  }

  /** `remove_catch_new_egress`: one delete of the interface's catch-flow
      cookie, mask left to its default. */
  function RemoveCatchNewEgress(L: CookieLayout, interfaceId: bv64): (reqs: seq<Request>)
    ensures |reqs| == 1 && reqs[0].DelCookieReq? && reqs[0].mask.None?
    ensures reqs[0].cookie == CatchFlowCookie(L, interfaceId)
    ensures Disjoint(L) && Fits(L, interfaceId) ==> IdOf(L, reqs[0].cookie) == interfaceId
  {
    [DelCookieReq(CatchFlowCookie(L, interfaceId), None)]
  }

  /** `close_connections`: one delete of the interface's connection cookie,
      mask left to its default. */
  function CloseConnections(L: CookieLayout, interfaceId: bv64): (reqs: seq<Request>)
    ensures |reqs| == 1 && reqs[0].DelCookieReq? && reqs[0].mask.None?
    ensures reqs[0].cookie == Connections.Cookie(L, interfaceId)
    ensures Disjoint(L) && Fits(L, interfaceId) ==> IdOf(L, reqs[0].cookie) == interfaceId
  {
    [DelCookieReq(Connections.Cookie(L, interfaceId), None)]
  }

  /** `open_connection` (and `packet_in`, which delegates to it): the TCP
      variant for TCP, the UDP variant for UDP, `nil` flows otherwise; then
      always one packet-out to OFPP_TABLE. An exception from the variant
      propagates, so nothing is handed on. */
  function OpenConnection(L: CookieLayout, tcp: Connections.Matcher, udp: Connections.Matcher, msg: PacketIn)
    : (r: Result<seq<Request>, Connections.Error>)
    ensures msg.protocol == Tcp ==> (r.Success? <==> Connections.Open(L, tcp, msg).Success?)
    ensures msg.protocol == Udp ==> (r.Success? <==> Connections.Open(L, udp, msg).Success?)
    ensures msg.protocol.OtherProtocol? ==> r == Success([AddFlowsReq(None), SendPacketOutReq(msg, TablePort)])
    ensures r.Success? ==> |r.value| == 2 && r.value[0].AddFlowsReq? && r.value[1] == SendPacketOutReq(msg, TablePort)
    ensures r.Success? && msg.protocol == Tcp ==> r.value[0] == AddFlowsReq(Some(Connections.Open(L, tcp, msg).value))
    ensures r.Success? && msg.protocol == Udp ==> r.value[0] == AddFlowsReq(Some(Connections.Open(L, udp, msg).value))
  {
    var flows: Option<Result<seq<Flow>, Connections.Error>> :=
      match msg.protocol
      case Tcp => Some(Connections.Open(L, tcp, msg))
      case Udp => Some(Connections.Open(L, udp, msg))
      case OtherProtocol(_) => None;
    match flows
    case None => Success([AddFlowsReq(None), SendPacketOutReq(msg, TablePort)])
    case Some(Failure(e)) => Failure(e)
    case Some(Success(fs)) => Success([AddFlowsReq(Some(fs)), SendPacketOutReq(msg, TablePort)])
  }

  /** Catch-flow to connection round trip: a packet-in punted by an
      interface's catch-flow yields connection rules tagged with that
      interface's connection cookie. */
  lemma CatchFlowOpensConnection(L: CookieLayout, variant: Connections.Matcher, interfaceId: bv64, msg: PacketIn)
    requires Disjoint(L) && Fits(L, interfaceId)
    requires msg.cookie == CatchFlowCookie(L, interfaceId)
    requires Connections.Open(L, variant, msg).Success?
    ensures forall f | f in Connections.Open(L, variant, msg).value :: f.cookie == Connections.Cookie(L, interfaceId)
  {
    assert IdOf(L, msg.cookie) == interfaceId;
  }
}

=== FILE: connections.dfy ===
/** `Connections::Base`: the egress/ingress rule pair built for a newly
    observed connection, and the cookie that tags both rules. The TCP and UDP
    variants only supply the protocol-specific part of each match, so a
    variant is modelled as a pair of matcher functions. */
module Connections {
  import opened Wrappers
  import opened OpenFlow
  import opened Cookies

  const EgressIdleTimeout: nat := 550
  const IngressIdleTimeout: nat := 600

  /** `NotImplementedError` raised by a matcher a variant does not override. */
  datatype Error = NotImplemented(matcherName: string)

  /** `match_egress` / `match_ingress` of one connection variant. */
  datatype Matcher = Matcher(
    matchEgress: PacketIn -> Result<Match, Error>,
    matchIngress: PacketIn -> Result<Match, Error>)

  /** The base class overrides nothing: both matchers raise. */
  const BaseVariant: Matcher := Matcher(
    _ => Failure(NotImplemented("match_egress")),
    _ => Failure(NotImplemented("match_ingress")))

  /** `Base.cookie(interface_id)`: connection-tracking type, ingress-connection
      tag and the interface id. */
  function Cookie(L: CookieLayout, interfaceId: bv64): (c: bv64)
    ensures Disjoint(L) && Fits(L, interfaceId) ==> IdOf(L, c) == interfaceId
  {
    L.typeContrack | TagIngressConnection(L) | interfaceId
  }

  /** Every connection cookie carries the ingress-connection tag. */
  lemma CookieHasIngressTag(L: CookieLayout, interfaceId: bv64)
    ensures Cookie(L, interfaceId) & TagIngressConnection(L) == TagIngressConnection(L)
  {
    OrHits(L.typeContrack, TagIngressConnection(L), interfaceId);
  }

  /** Distinct interfaces get distinct connection cookies, so closing one
      interface's connections never touches another's. */
  lemma CookieInjective(L: CookieLayout, a: bv64, b: bv64)
    requires Disjoint(L) && Fits(L, a) && Fits(L, b)
    requires Cookie(L, a) == Cookie(L, b)
    ensures a == b
  {
    assert IdOf(L, Cookie(L, a)) == a;
    assert IdOf(L, Cookie(L, b)) == b;
  }

  lemma OrHits(a: bv64, g: bv64, c: bv64)
    ensures (a | g | c) & g == g
  {
  }

  /** The forward-direction rule; `extra` is what `match_egress` returned and
      is merged over the address fields. */
  function EgressFlow(L: CookieLayout, msg: PacketIn, extra: Match): Flow {
    Flow(
      InterfaceEgressFilter, 21,
      map[EthSrc := msg.ethSrc, EthType := msg.ethType,
          Ipv4Src := msg.ipv4Src, Ipv4Dst := msg.ipv4Dst] + extra,
      NoMetadata, [], NoMetadata,
      Cookie(L, IdOf(L, msg.cookie)),
      Some(EgressIdleTimeout), Some(NetworkSrcClassifier))
  }

  /** The reverse-direction rule, additionally matched against the owning
      interface id in packet metadata. */
  function IngressFlow(L: CookieLayout, msg: PacketIn, extra: Match): Flow {
    var interfaceId := IdOf(L, msg.cookie);
    Flow(
      InterfaceIngressFilterLookup, 10,
      map[EthDst := msg.ethSrc, EthType := EthTypeIpv4,
          Ipv4Src := msg.ipv4Dst, Ipv4Dst := msg.ipv4Src] + extra,
      Metadata(None, Some(interfaceId), None, {}), [], NoMetadata,
      Cookie(L, interfaceId),
      Some(IngressIdleTimeout), Some(OutputInterfaceIngress))
  }

  /** `Base#open`: the rule pair for one packet-in, or the error the first
      failing matcher raises. `match_egress` is evaluated before
      `match_ingress`, and no partial list is ever returned. */
  function Open(L: CookieLayout, variant: Matcher, msg: PacketIn): (r: Result<seq<Flow>, Error>)
    ensures r.Success? <==> variant.matchEgress(msg).Success? && variant.matchIngress(msg).Success?
    ensures variant.matchEgress(msg).Failure? ==> r == Failure(variant.matchEgress(msg).error)
    ensures r.Failure? && variant.matchEgress(msg).Success? ==> r == Failure(variant.matchIngress(msg).error)
    ensures r.Success? ==> |r.value| == 2
    ensures r.Success? ==>
      && r.value[0].table == InterfaceEgressFilter && r.value[0].priority == 21
      && r.value[0].gotoTable == Some(NetworkSrcClassifier)
      && EthType in r.value[0].matchFields && r.value[0].matchFields[EthType] == (if EthType in variant.matchEgress(msg).value then variant.matchEgress(msg).value[EthType] else msg.ethType)
    ensures r.Success? ==>
      && r.value[1].table == InterfaceIngressFilterLookup && r.value[1].priority == 10
      && r.value[1].gotoTable == Some(OutputInterfaceIngress)
      && r.value[1].matchMetadata.interface == Some(msg.cookie & L.idMask)
      && EthType in r.value[1].matchFields && r.value[1].matchFields[EthType] == (if EthType in variant.matchIngress(msg).value then variant.matchIngress(msg).value[EthType] else EthTypeIpv4)
    ensures r.Success? ==>
      var e := variant.matchEgress(msg).value;
      var f := r.value[0].matchFields;
      && f.Keys == e.Keys + {EthSrc, EthType, Ipv4Src, Ipv4Dst}
      && (forall k | k in e :: f[k] == e[k])
      && (EthSrc !in e ==> f[EthSrc] == msg.ethSrc)
      && (Ipv4Src !in e ==> f[Ipv4Src] == msg.ipv4Src)
      && (Ipv4Dst !in e ==> f[Ipv4Dst] == msg.ipv4Dst)
    ensures r.Success? ==>
      var g := variant.matchIngress(msg).value;
      var f := r.value[1].matchFields;
      && f.Keys == g.Keys + {EthDst, EthType, Ipv4Src, Ipv4Dst}
      && (forall k | k in g :: f[k] == g[k])
      && (EthDst !in g ==> f[EthDst] == msg.ethSrc)
      && (Ipv4Src !in g ==> f[Ipv4Src] == msg.ipv4Dst)
      && (Ipv4Dst !in g ==> f[Ipv4Dst] == msg.ipv4Src)
    ensures r.Success? ==> forall f | f in r.value :: f.cookie == Cookie(L, msg.cookie & L.idMask)
    ensures r.Success? ==> r.value[0].idleTimeout == Some(550) && r.value[1].idleTimeout == Some(600)
    ensures r.Success? ==> r.value[0].actions == [] && r.value[1].actions == []
    ensures r.Success? ==>
      && r.value[0].matchMetadata == NoMetadata
      && r.value[0].writeMetadata == NoMetadata && r.value[1].writeMetadata == NoMetadata
      && r.value[1].matchMetadata == Metadata(None, Some(msg.cookie & L.idMask), None, {})
  {
    match variant.matchEgress(msg)
    case Failure(e) => Failure(e)
    case Success(egress) =>
      match variant.matchIngress(msg)
      case Failure(e) => Failure(e)
      case Success(ingress) =>
        Success([EgressFlow(L, msg, egress), IngressFlow(L, msg, ingress)])
  }

  /** The base variant never yields rules: it fails on `match_egress`. */
  lemma BaseOpenFails(L: CookieLayout, msg: PacketIn)
    ensures Open(L, BaseVariant, msg) == Failure(NotImplemented("match_egress"))
  {
  }

  /** Both rules of a connection carry one cookie, whose id field is the
      interface id taken from the packet-in's cookie. */
  lemma OpenCookieCarriesInterface(L: CookieLayout, variant: Matcher, msg: PacketIn)
    requires Disjoint(L)
    requires Open(L, variant, msg).Success?
    ensures Open(L, variant, msg).value[0].cookie == Open(L, variant, msg).value[1].cookie
    ensures IdOf(L, Open(L, variant, msg).value[0].cookie) == IdOf(L, msg.cookie)
  {
    var id := IdOf(L, msg.cookie);
    assert Fits(L, id);
  }

  /** The cookie depends only on the id bits of the packet-in's cookie, never
      on addresses, ports or the protocol variant. */
  lemma OpenCookieIndependentOfTuple(L: CookieLayout, v1: Matcher, m1: PacketIn, v2: Matcher, m2: PacketIn)
    requires Open(L, v1, m1).Success? && Open(L, v2, m2).Success?
    requires IdOf(L, m1.cookie) == IdOf(L, m2.cookie)
    ensures forall i, j | 0 <= i < 2 && 0 <= j < 2 ::
      Open(L, v1, m1).value[i].cookie == Open(L, v2, m2).value[j].cookie
  {
  }

  /** The egress rule expires before the ingress rule. */
  lemma EgressExpiresFirst(L: CookieLayout, variant: Matcher, msg: PacketIn)
    requires Open(L, variant, msg).Success?
    ensures Open(L, variant, msg).value[0].idleTimeout.value < Open(L, variant, msg).value[1].idleTimeout.value
  {
  }

  /** The ingress rule matches the egress rule's traffic reversed: its
      destination MAC is the packet's source MAC and its IPv4 addresses are
      swapped, wherever the variant's matchers leave those fields alone. */
  lemma OpenReversesDirection(L: CookieLayout, variant: Matcher, msg: PacketIn)
    requires Open(L, variant, msg).Success?
    requires EthSrc !in variant.matchEgress(msg).value
    requires Ipv4Src !in variant.matchEgress(msg).value && Ipv4Dst !in variant.matchEgress(msg).value
    requires EthDst !in variant.matchIngress(msg).value
    requires Ipv4Src !in variant.matchIngress(msg).value && Ipv4Dst !in variant.matchIngress(msg).value
    ensures var egress := Open(L, variant, msg).value[0].matchFields;
            var ingress := Open(L, variant, msg).value[1].matchFields;
            && EthSrc in egress && EthDst in ingress && egress[EthSrc] == msg.ethSrc
            && ingress[EthDst] == egress[EthSrc]
            && Ipv4Src in egress && Ipv4Dst in egress && Ipv4Src in ingress && Ipv4Dst in ingress
            && ingress[Ipv4Src] == egress[Ipv4Dst] == msg.ipv4Dst
            && ingress[Ipv4Dst] == egress[Ipv4Src] == msg.ipv4Src
  {
  }
}

=== FILE: cookies.dfy ===
/** The 64-bit cookie layout: a type field, a tag field and an entity-id
    field OR-ed together. The constants are defined outside the modelled
    files, so they are parameters; `Disjoint` is the assumption the code makes
    about them without checking it. */
module Cookies {

  /** `COOKIE_TAG_SHIFT`; a tag `0x2 << shift` fits in 64 bits only when the
      shift is at most 62. */
  type TagShift = n: bv64 | n <= 62

  datatype CookieLayout = CookieLayout(
    typeContrack: bv64,     // COOKIE_TYPE_CONTRACK
    typeDpRouteLink: bv64,  // COOKIE_TYPE_DP_ROUTE_LINK
    tagShift: TagShift,     // COOKIE_TAG_SHIFT
    idMask: bv64,           // COOKIE_ID_MASK
    typeMask: bv64)         // the mask of the type field

  /** `COOKIE_TAG_CATCH_FLOW = 0x1 << COOKIE_TAG_SHIFT`. */
  function TagCatchFlow(L: CookieLayout): bv64 {
    (1 as bv64) << L.tagShift
  }

  /** `COOKIE_TAG_INGRESS_CONNECTION = 0x2 << COOKIE_TAG_SHIFT`. */
  function TagIngressConnection(L: CookieLayout): bv64 {
    (2 as bv64) << L.tagShift
  }

  /** Type, tag and id fields do not overlap. */
  predicate Disjoint(L: CookieLayout) {
    && L.typeContrack & L.idMask == 0
    && L.typeDpRouteLink & L.idMask == 0
    && TagCatchFlow(L) & L.idMask == 0
    && TagIngressConnection(L) & L.idMask == 0
    && TagCatchFlow(L) & L.typeContrack == 0
    && TagIngressConnection(L) & L.typeContrack == 0
  }

  /** The type field is a region of its own: each type lies inside it, the
      two types differ, and neither the tags nor the id field reach into it.
      Together with `Disjoint` this separates every cookie kind modelled
      here. */
  predicate TypeFieldSeparate(L: CookieLayout) {
    && L.typeContrack & !L.typeMask == 0
    && L.typeDpRouteLink & !L.typeMask == 0
    && L.typeContrack != L.typeDpRouteLink
    && L.idMask & L.typeMask == 0
    && TagCatchFlow(L) & L.typeMask == 0
    && TagIngressConnection(L) & L.typeMask == 0
  }

  /** A route-link style cookie, a fitting id OR-ed with type `t`, carries
      type `t`. The fields are plain values so the solver sees no shifts. */
  lemma RouteLinkTyped(t: bv64, id: bv64, idMask: bv64, typeMask: bv64)
    requires t & !typeMask == 0
    requires id & !idMask == 0 && idMask & typeMask == 0
    ensures (id | t) & typeMask == t
  {
  }

  /** A connection style cookie, type `t`, tag `g` and a fitting id OR-ed
      together, carries type `t`. */
  lemma ConnectionTyped(t: bv64, g: bv64, id: bv64, idMask: bv64, typeMask: bv64)
    requires t & !typeMask == 0 && g & typeMask == 0
    requires id & !idMask == 0 && idMask & typeMask == 0
    ensures (t | g | id) & typeMask == t
  {
  }

  /** An entity id fits the id field: `id & ~COOKIE_ID_MASK == 0`. */
  predicate Fits(L: CookieLayout, id: bv64) {
    id & !L.idMask == 0
  }

  /** `cookie & COOKIE_ID_MASK`: the entity id a cookie carries. */
  function IdOf(L: CookieLayout, cookie: bv64): (id: bv64)
    ensures Fits(L, id)
  {
    cookie & L.idMask
  }

  /** The two tags are different bits, so no cookie carries both. */
  lemma TagsDiffer(L: CookieLayout)
    ensures TagCatchFlow(L) & TagIngressConnection(L) == 0
    ensures TagCatchFlow(L) != TagIngressConnection(L)
  {
  }
}

=== FILE: datapath.dfy ===
/** The `Datapath` actor of one switch, sequential part: its bring-up state
    machine and the messages its flow-modification methods send. The actor's
    mailbox and `pass_task` hand-off are modelled as an ordered, append-only
    log of outgoing messages. */
module DatapathActor {
  import opened Wrappers
  import opened OpenFlow
  import opened Dpid
  import opened DpInfo

  /** A persisted `datapaths` row. */
  datatype DatapathRecord = DatapathRecord(
    id: nat,
    uuid: string,
    displayName: string,
    dpid: string,
    dcSegmentId: Option<nat>,
    ipv4Address: Ipv4Addr,
    nodeId: string)

  /** The read-only snapshot shared with every manager. A datatype value
      cannot change once built, which is what the class's readers-only
      interface promises. */
  datatype DatapathInfo = DatapathInfo(
    id: nat,
    uuid: string,
    displayName: string,
    dcSegmentId: Option<nat>,
    ipv4Address: Ipv4Addr,
    datapathMap: DatapathRecord)

  /** `DatapathInfo#initialize`: copies the record's fields verbatim. */
  function NewDatapathInfo(rec: DatapathRecord): (info: DatapathInfo)
    ensures info.id == rec.id && info.uuid == rec.uuid && info.displayName == rec.displayName
    ensures info.dcSegmentId == rec.dcSegmentId && info.ipv4Address == rec.ipv4Address
    ensures info.datapathMap == rec
  {
    DatapathInfo(rec.id, rec.uuid, rec.displayName, rec.dcSegmentId, rec.ipv4Address, rec)
  }

  /** The managers that receive the snapshot, in the order they receive it. */
  datatype Manager =
    | DatapathManager | DcSegmentManager | InterfaceManager | NetworkManager
    | RouteManager | ServiceManager | TunnelManager | TranslationManager

  const ManagerOrder: seq<Manager> := [
    DatapathManager, DcSegmentManager, InterfaceManager, NetworkManager,
    RouteManager, ServiceManager, TunnelManager, TranslationManager]

  /** Position of a manager in `ManagerOrder`: every manager is listed. */
  function ManagerIndex(m: Manager): (k: nat)
    ensures k < |ManagerOrder| && ManagerOrder[k] == m
  {
    match m
    case DatapathManager => 0
    case DcSegmentManager => 1
    case InterfaceManager => 2
    case NetworkManager => 3
    case RouteManager => 4
    case ServiceManager => 5
    case TunnelManager => 6
    case TranslationManager => 7
  }

  /** What `create_switch` does to the switch and the managers, in order. */
  datatype Event = DefaultFlowsCreated | InfoSet(manager: Manager, info: DatapathInfo) | SwitchReady

  datatype Phase = Created | SwitchBuilding | Ready

  /** Messages handed to the controller; every one names its datapath. */
  datatype OfMessage =
    | FlowModAdd(dpid: nat, flow: Flow)
    | FlowModDelete(dpid: nat, tableId: TableSelector, outPort: PortNo, outGroup: GroupSelector,
                    cookie: bv64, cookieMask: bv64)
    | RawMessage(dpid: nat, payload: seq<bv8>)
    | PacketOut(dpid: nat, packet: PacketIn, port: PortNo)

  datatype Datapath = Datapath(
    dpid: nat,
    phase: Phase,
    datapathMap: Option<DatapathRecord>,
    datapathInfo: Option<DatapathInfo>,
    events: seq<Event>,
    sent: seq<OfMessage>,
    ovsFlows: seq<LearnFlow>)

  /** `Datapath#initialize`. */
  function NewDatapath(dpid: nat): (dp: Datapath)
    ensures dp.dpid == dpid
    ensures dp.phase == Created && dp.datapathMap.None? && dp.datapathInfo.None?
    ensures dp.events == [] && dp.sent == [] && dp.ovsFlows == []
  {
    Datapath(dpid, Created, None, None, [], [], [])
  }

  /** `datapath_id`: the record's id once a record has been found. */
  function DatapathId(dp: Datapath): (id: Option<nat>)
    ensures id.Some? <==> dp.datapathMap.Some?
    ensures id.Some? ==> id.value == dp.datapathMap.value.id
  {
    match dp.datapathMap
    case None => None
    case Some(rec) => Some(rec.id)
  }

  function InfoEvents(info: DatapathInfo): (evs: seq<Event>)
    ensures |evs| == |ManagerOrder|
    ensures forall i | 0 <= i < |evs| :: evs[i] == InfoSet(ManagerOrder[i], info)
  {
    seq(|ManagerOrder|, i requires 0 <= i < |ManagerOrder| => InfoSet(ManagerOrder[i], info))
  }

  /** `create_switch`: default flows first, then the lookup of the record by
      `dpid_s` in `db`. Without a record the datapath stays building and the
      snapshot it had is kept; with one, a fresh snapshot goes to every
      manager and only then is the switch made ready. */
  function CreateSwitch(dp: Datapath, db: map<string, DatapathRecord>): (r: Datapath)
    ensures r.dpid == dp.dpid && r.sent == dp.sent && r.ovsFlows == dp.ovsFlows
    ensures |r.events| > |dp.events| && r.events[..|dp.events|] == dp.events
    ensures r.events[|dp.events|] == DefaultFlowsCreated
    ensures r.phase == Ready <==> DpidString(dp.dpid) in db
    ensures DpidString(dp.dpid) !in db ==>
      && r.phase == SwitchBuilding && r.datapathMap == None && r.datapathInfo == dp.datapathInfo
      && r.events == dp.events + [DefaultFlowsCreated]
    ensures DpidString(dp.dpid) in db ==>
      && r.datapathMap == Some(db[DpidString(dp.dpid)])
      && r.datapathInfo == Some(NewDatapathInfo(db[DpidString(dp.dpid)]))
      && r.events == dp.events + [DefaultFlowsCreated] + InfoEvents(r.datapathInfo.value) + [SwitchReady]
  {
    var building := dp.(events := dp.events + [DefaultFlowsCreated]);
    var key := DpidString(dp.dpid);
    if key !in db then
      building.(phase := SwitchBuilding, datapathMap := None)
    else
      var info := NewDatapathInfo(db[key]);
      building.(phase := Ready, datapathMap := Some(db[key]), datapathInfo := Some(info),
                events := building.events + InfoEvents(info) + [SwitchReady])
  }

  /** The flow-mod-adds for `flows`, one per rule, in list order. */
  function FlowModAdds(dpid: nat, flows: seq<Flow>): (ms: seq<OfMessage>)
    ensures |ms| == |flows|
    ensures forall i | 0 <= i < |ms| :: ms[i] == FlowModAdd(dpid, flows[i])
  {
    if flows == [] then [] else [FlowModAdd(dpid, flows[0])] + FlowModAdds(dpid, flows[1..])
  }

  /** Only the controller log changed, by exactly one message `m` appended,
      and `m` names this datapath. */
  predicate SentOne(dp: Datapath, r: Datapath, m: OfMessage) {
    r == dp.(sent := r.sent) && r.sent == dp.sent + [m] && m.dpid == dp.dpid
  }

  /** `add_flow`: one flow-mod-add carrying `flow`. */
  function AddFlow(dp: Datapath, flow: Flow): (r: Datapath)
    ensures |r.sent| == |dp.sent| + 1 && SentOne(dp, r, r.sent[|dp.sent|])
    ensures r.sent[|dp.sent|].FlowModAdd? && r.sent[|dp.sent|].flow == flow
  {
    dp.(sent := dp.sent + [FlowModAdd(dp.dpid, flow)])
  }

  /** `add_flows`: a `nil` or empty list sends nothing. */
  function AddFlows(dp: Datapath, flows: Option<seq<Flow>>): (r: Datapath)
    ensures flows.None? || flows.value == [] ==> r == dp
    ensures r == dp.(sent := r.sent)
    ensures flows.Some? ==> |r.sent| == |dp.sent| + |flows.value|
    ensures r.sent[..|dp.sent|] == dp.sent
    ensures flows.Some? ==> forall i | 0 <= i < |flows.value| :: r.sent[|dp.sent| + i] == FlowModAdd(dp.dpid, flows.value[i])
  {
    match flows
    case None => dp
    case Some(fs) => if fs == [] then dp else dp.(sent := dp.sent + FlowModAdds(dp.dpid, fs))
  }

  /** `del_cookie(cookie, cookie_mask = 0xffffffffffffffff)`: one delete
      across all tables, any port and any group. */
  function DelCookie(dp: Datapath, cookie: bv64, mask: bv64 := FullCookieMask): (r: Datapath)
    ensures |r.sent| == |dp.sent| + 1 && SentOne(dp, r, r.sent[|dp.sent|])
    ensures var m := r.sent[|dp.sent|];
            && m.FlowModDelete? && m.tableId == AllTables && m.outPort == AnyPort && m.outGroup == AnyGroup
            && m.cookie == cookie && m.cookieMask == mask
  {
    dp.(sent := dp.sent + [FlowModDelete(dp.dpid, AllTables, AnyPort, AnyGroup, cookie, mask)])
  }

  /** `send_message`: the message, addressed to this datapath. */
  function SendMessage(dp: Datapath, payload: seq<bv8>): (r: Datapath)
    ensures |r.sent| == |dp.sent| + 1 && SentOne(dp, r, r.sent[|dp.sent|])
    ensures r.sent[|dp.sent|].RawMessage? && r.sent[|dp.sent|].payload == payload
  {
    dp.(sent := dp.sent + [RawMessage(dp.dpid, payload)])
  }

  /** `send_packet_out`: the packet, to be output on `port`. */
  function SendPacketOut(dp: Datapath, packet: PacketIn, port: PortNo): (r: Datapath)
    ensures |r.sent| == |dp.sent| + 1 && SentOne(dp, r, r.sent[|dp.sent|])
    ensures r.sent[|dp.sent|].PacketOut? && r.sent[|dp.sent|].packet == packet && r.sent[|dp.sent|].port == port
  {
    dp.(sent := dp.sent + [PacketOut(dp.dpid, packet, port)])
  }

  /** `add_ovs_flow`: goes to ovs-ofctl, not to the controller. */
  function AddOvsFlow(dp: Datapath, flow: LearnFlow): (r: Datapath)
    ensures r == dp.(ovsFlows := r.ovsFlows) && r.ovsFlows == dp.ovsFlows + [flow]
  {
    dp.(ovsFlows := dp.ovsFlows + [flow])
  }

  /** What a request may change: it appends to the two logs, and every
      message it sends names this datapath. */
  predicate Extends(dp: Datapath, r: Datapath) {
    && r == dp.(sent := r.sent, ovsFlows := r.ovsFlows)
    && |r.sent| >= |dp.sent| && r.sent[..|dp.sent|] == dp.sent
    && |r.ovsFlows| >= |dp.ovsFlows| && r.ovsFlows[..|dp.ovsFlows|] == dp.ovsFlows
    && (forall i | |dp.sent| <= i < |r.sent| :: r.sent[i].dpid == dp.dpid)
  }

  lemma ExtendsTransitive(a: Datapath, b: Datapath, c: Datapath)
    requires Extends(a, b) && Extends(b, c)
    ensures Extends(a, c)
  {
    assert c.sent[..|a.sent|] == b.sent[..|b.sent|][..|a.sent|];
    assert c.ovsFlows[..|a.ovsFlows|] == b.ovsFlows[..|b.ovsFlows|][..|a.ovsFlows|];
  }

  /** Carries out one request from a manager, through the `dp_info`
      method of the same name. Only an ovs-ofctl request reaches the
      ovs-ofctl log; a delete without a mask uses the all-ones default. */
  function Apply(dp: Datapath, req: Request): (r: Datapath)
    ensures Extends(dp, r)
    ensures req.AddOvsFlowReq? <==> r.ovsFlows != dp.ovsFlows
    ensures req.AddOvsFlowReq? ==> r.sent == dp.sent && r.ovsFlows == dp.ovsFlows + [req.ovsFlow]
    ensures req.DelCookieReq? ==>
      r.sent == dp.sent + [FlowModDelete(dp.dpid, AllTables, AnyPort, AnyGroup, req.cookie,
                                         if req.mask.Some? then req.mask.value else FullCookieMask)]
    ensures req.AddFlowReq? ==> r.sent == dp.sent + [FlowModAdd(dp.dpid, req.flow)]
    ensures req.AddFlowsReq? ==>
      r.sent == dp.sent + if req.flows.Some? then FlowModAdds(dp.dpid, req.flows.value) else []
    ensures req.SendMessageReq? ==> r.sent == dp.sent + [RawMessage(dp.dpid, req.payload)]
    ensures req.SendPacketOutReq? ==> r.sent == dp.sent + [PacketOut(dp.dpid, req.packet, req.port)]
  {
    match req
    case AddFlowReq(f) => AddFlow(dp, f)
    case AddFlowsReq(fs) => AddFlows(dp, fs)
    case DelCookieReq(c, m) => if m.Some? then DelCookie(dp, c, m.value) else DelCookie(dp, c)
    case SendMessageReq(p) => SendMessage(dp, p)
    case SendPacketOutReq(p, port) => SendPacketOut(dp, p, port)
    case AddOvsFlowReq(f) => AddOvsFlow(dp, f)
  }

  /** Carries out requests in order, as the actor's mailbox does. A run of
      requests keeps the dpid, the bring-up state and everything already
      logged, and every message it adds names this datapath. */
  function ApplyAll(dp: Datapath, reqs: seq<Request>): (r: Datapath)
    ensures Extends(dp, r)
    decreases |reqs|
  {
    if reqs == [] then dp
    else
      var next := Apply(dp, reqs[0]);
      var r := ApplyAll(next, reqs[1..]);
      ExtendsTransitive(dp, next, r);
      r
  }

  /** Every message in the log names this datapath. */
  predicate AllAddressed(dp: Datapath) {
    forall i | 0 <= i < |dp.sent| :: dp.sent[i].dpid == dp.dpid
  }

  /** Hence a log that names only this datapath keeps doing so. */
  lemma ApplyAllKeepsAddressing(dp: Datapath, reqs: seq<Request>)
    requires AllAddressed(dp)
    ensures AllAddressed(ApplyAll(dp, reqs))
  {
    var r := ApplyAll(dp, reqs);
    forall i | 0 <= i < |r.sent| ensures r.sent[i].dpid == r.dpid {
      if i < |dp.sent| {
        assert r.sent[i] == r.sent[..|dp.sent|][i];
      }
    }
  }

  /** Running two batches is running their concatenation. */
  lemma {:induction false} ApplyAllConcat(dp: Datapath, a: seq<Request>, b: seq<Request>)
    ensures ApplyAll(dp, a + b) == ApplyAll(ApplyAll(dp, a), b)
    decreases |a|
  {
    if a == [] {
      assert a + b == b;
    } else {
      assert (a + b)[1..] == a[1..] + b;
      ApplyAllConcat(Apply(dp, a[0]), a[1..], b);
    }
  }

  /** A switch whose record is missing never becomes ready and has no
      snapshot, and `datapath_id` stays absent. */
  lemma MissingRecordStaysBuilding(dpid: nat, db: map<string, DatapathRecord>)
    requires DpidString(dpid) !in db
    ensures var r := CreateSwitch(NewDatapath(dpid), db);
            && r.phase == SwitchBuilding && r.datapathInfo.None? && DatapathId(r).None?
            && SwitchReady !in r.events
  {
  }

  /** Every manager receives `info` within the events `evs[lo..hi]`. */
  predicate Informed(evs: seq<Event>, lo: nat, hi: nat, info: DatapathInfo)
    requires lo <= hi <= |evs|
  {
    forall m: Manager :: InfoSet(m, info) in evs[lo..hi]
  }

  /** Once ready, every manager received the very snapshot the datapath
      holds, before the switch was made ready, and `datapath_id` is the
      record's id. */
  lemma ReadyAfterAllManagers(dp: Datapath, db: map<string, DatapathRecord>)
    requires CreateSwitch(dp, db).phase == Ready
    ensures CreateSwitch(dp, db).datapathInfo.Some?
    ensures DatapathId(CreateSwitch(dp, db)) == Some(db[DpidString(dp.dpid)].id)
    ensures var evs := CreateSwitch(dp, db).events; evs[|evs| - 1] == SwitchReady
    ensures var r := CreateSwitch(dp, db);
            Informed(r.events, |dp.events| + 1, |r.events| - 1, r.datapathInfo.value)
    ensures var evs := CreateSwitch(dp, db).events; SwitchReady !in evs[|dp.events|..|evs| - 1]
  {
    var r := CreateSwitch(dp, db);
    var n := |dp.events|;
    var info := r.datapathInfo.value;
    assert r.events[n..|r.events| - 1] == [DefaultFlowsCreated] + InfoEvents(info);
    assert r.events[n + 1..|r.events| - 1] == InfoEvents(info);
    forall m: Manager ensures InfoSet(m, info) in r.events[n + 1..|r.events| - 1] {
      assert InfoEvents(info)[ManagerIndex(m)] == InfoSet(m, info);
    }
  }
}

=== FILE: dpid.dfy ===
/** `dpid_s`: the datapath id rendered with `"0x%016x"`, as a string of
    lower-case hex digits zero-padded to at least sixteen places, and its
    inverse. */
module Dpid {
  import opened Wrappers

  predicate IsLowerHex(c: char) {
    '0' <= c <= '9' || 'a' <= c <= 'f'
  }

  function DigitValue(c: char): (d: nat)
    requires IsLowerHex(c)
    ensures d < 16
  {
    if c <= '9' then c as int - '0' as int else c as int - 'a' as int + 10
  }

  function HexDigit(d: nat): (c: char)
    requires d < 16
    ensures IsLowerHex(c)
    ensures DigitValue(c) == d
  {
    if d < 10 then ('0' as int + d) as char else ('a' as int + d - 10) as char
  }

  predicate AllLowerHex(s: string) {
    forall i | 0 <= i < |s| :: IsLowerHex(s[i])
  }

  /** `"%x" % n`: the shortest hex rendering of n ("0" for zero). */
  function Hex(n: nat): (s: string)
    ensures 1 <= |s|
    ensures AllLowerHex(s)
    decreases n
  {
    if n < 16 then [HexDigit(n)] else Hex(n / 16) + [HexDigit(n % 16)]
  }

  function Zeros(k: nat): (z: string)
    ensures |z| == k
  {
    seq(k, _ => '0')
  }

  /** The `0` flag with a width: pad on the left with '0' up to `width`. */
  function ZeroPad(s: string, width: nat): (r: string)
    ensures |r| == if |s| < width then width else |s|
    ensures r[|r| - |s|..] == s
    ensures forall i | 0 <= i < |r| - |s| :: r[i] == '0'
  {
    if |s| < width then Zeros(width - |s|) + s else s
  }

  /** Value of a string of hex digits, most significant first. */
  function ParseHex(s: string): nat
    requires AllLowerHex(s)
    decreases |s|
  {
    if s == [] then 0 else 16 * ParseHex(s[..|s| - 1]) + DigitValue(s[|s| - 1])
  }

  /** Reads back a "0x"-prefixed lower-case hex string. */
  function ParseDpid(s: string): Option<nat> {
    if |s| > 2 && s[..2] == "0x" && AllLowerHex(s[2..]) then Some(ParseHex(s[2..])) else None
  }

  function Pow16(k: nat): (p: nat)
    ensures 1 <= p
  {
    if k == 0 then 1 else 16 * Pow16(k - 1)
  }

  lemma {:induction false} HexRoundTrip(n: nat)
    ensures ParseHex(Hex(n)) == n
    decreases n
  {
    if n >= 16 {
      var s := Hex(n);
      assert s[..|s| - 1] == Hex(n / 16);
      HexRoundTrip(n / 16);
    }
  }

  lemma {:induction false} LeadingZerosAreNoise(k: nat, s: string)
    requires AllLowerHex(s)
    ensures AllLowerHex(Zeros(k) + s)
    ensures ParseHex(Zeros(k) + s) == ParseHex(s)
    decreases |s|, k
  {
    var t := Zeros(k) + s;
    assert AllLowerHex(t) by {
      forall i | 0 <= i < |t| ensures IsLowerHex(t[i]) {
        if i >= k { assert t[i] == s[i - k]; }
      }
    }
    if s == [] {
      if k > 0 {
        assert t[..|t| - 1] == Zeros(k - 1) + [];
        LeadingZerosAreNoise(k - 1, []);
      }
    } else {
      var s' := s[..|s| - 1];
      assert t[..|t| - 1] == Zeros(k) + s';
      LeadingZerosAreNoise(k, s');
    }
  }

  /** The shortest rendering has at most k digits exactly when n < 16^k. */
  lemma {:induction false} HexLength(n: nat, k: nat)
    requires 1 <= k
    ensures |Hex(n)| <= k <==> n < Pow16(k)
    decreases n
  {
    if n < 16 {
      assert Pow16(k) >= 16 by { Pow16AtLeast16(k); }
    } else if k == 1 {
      assert |Hex(n)| == |Hex(n / 16)| + 1;
    } else {
      HexLength(n / 16, k - 1);
      assert n / 16 < Pow16(k - 1) <==> n < 16 * Pow16(k - 1);
    }
  }

  lemma {:induction false} Pow16AtLeast16(k: nat)
    requires 1 <= k
    ensures Pow16(k) >= 16
  {
    if k > 1 {
      Pow16AtLeast16(k - 1);
    }
  }

  lemma Pow16Is2To64()
    ensures Pow16(16) == 0x1_0000_0000_0000_0000
  {
    assert Pow16(1) == 16;
    assert Pow16(2) == 256;
    assert Pow16(3) == 4096;
    assert Pow16(4) == 65536;
    assert Pow16(5) == 1048576;
    assert Pow16(6) == 16777216;
    assert Pow16(7) == 268435456;
    assert Pow16(8) == 4294967296;
    assert Pow16(9) == 68719476736;
    assert Pow16(10) == 1099511627776;
    assert Pow16(11) == 17592186044416;
    assert Pow16(12) == 281474976710656;
    assert Pow16(13) == 4503599627370496;
    assert Pow16(14) == 72057594037927936;
    assert Pow16(15) == 1152921504606846976;
    assert Pow16(16) == 18446744073709551616;
  }

  /** `"0x%016x" % dpid`: "0x", then at least sixteen lower-case hex
      digits, and it reads back as the dpid it was made from. */
  function DpidString(dpid: nat): (r: string)
    ensures |r| >= 18 && r[..2] == "0x" && AllLowerHex(r[2..])
    ensures ParseDpid(r) == Some(dpid)
  {
    var h := Hex(dpid);
    var padded := ZeroPad(h, 16);
    HexRoundTrip(dpid);
    ZeroPadKeepsValue(h, 16);
    var r := "0x" + padded;
    assert r[2..] == padded;
    r
  }

  /** The zero padding keeps the string hex and keeps its value. */
  lemma ZeroPadKeepsValue(s: string, width: nat)
    requires AllLowerHex(s)
    ensures AllLowerHex(ZeroPad(s, width)) && ParseHex(ZeroPad(s, width)) == ParseHex(s)
  {
    if |s| < width {
      LeadingZerosAreNoise(width - |s|, s);
    }
  }

  /** Distinct dpids give distinct strings, so the lookup key names one
      datapath. */
  lemma DpidStringInjective(a: nat, b: nat)
    requires DpidString(a) == DpidString(b)
    ensures a == b
  {
    assert ParseDpid(DpidString(a)) == Some(a);
  }

  /** For a 64-bit dpid the string is "0x" and exactly sixteen digits; a
      wider dpid gets more digits. */
  lemma DpidStringLength(dpid: nat)
    ensures |DpidString(dpid)| == 18 <==> dpid < 0x1_0000_0000_0000_0000
  {
    HexLength(dpid, 16);
    Pow16Is2To64();
  }
}

=== FILE: dpinfo.dfy ===
/** The requests a manager hands to its datapath through `@dp_info`. They
    carry arguments exactly as the managers pass them; the datapath turns them
    into outgoing messages. */
module DpInfo {
  import opened Wrappers
  import opened OpenFlow

  datatype Request =
      /** `add_flow(flow)` */
    | AddFlowReq(flow: Flow)
      /** `add_flows(flows)`; None stands for `nil`. */
    | AddFlowsReq(flows: Option<seq<Flow>>)
      /** `del_cookie(cookie[, mask])`; None means the mask was omitted. */
    | DelCookieReq(cookie: bv64, mask: Option<bv64>)
      /** `send_message(message)` with an opaque encoded message. */
    | SendMessageReq(payload: seq<bv8>)
      /** `send_packet_out(message, port_no)` */
    | SendPacketOutReq(packet: PacketIn, port: PortNo)
      /** `add_ovs_flow(flow_str)`, the ovs-ofctl escape hatch. */
    | AddOvsFlowReq(ovsFlow: LearnFlow)
}

=== FILE: host.dfy ===
/** `Datapaths::Host#flows_for_dp_route_link`: the stitching rule that, on
    the host datapath of a route link, rewrites the route-link id carried in
    the first value field into the local interface id. */
module HostDatapath {
  import opened Wrappers
  import opened OpenFlow
  import opened Cookies
  import Connections
  import ConnectionManager

  /** One `datapath_route_links` binding: its own id, the route link and
      the local interface. */
  datatype DpRouteLink = DpRouteLink(id: bv64, routeLinkId: bv64, interfaceId: bv64)

  /** `dp_rl[:id] | COOKIE_TYPE_DP_ROUTE_LINK`. */
  function RouteLinkCookie(L: CookieLayout, bindingId: bv64): (c: bv64)
    ensures Disjoint(L) && Fits(L, bindingId) ==> IdOf(L, c) == bindingId
  {
    bindingId | L.typeDpRouteLink
  }

  /** Appends the stitching rule to `flows`, leaving the earlier entries as
      they were. */
  function FlowsForDpRouteLink(L: CookieLayout, flows: seq<Flow>, dpRl: DpRouteLink): (r: seq<Flow>)
    ensures |r| == |flows| + 1 && r[..|flows|] == flows
    ensures var f := r[|flows|];
            && f.table == OutputDpRouteLinkSrc && f.priority == 1
            && f.gotoTable == Some(OutputDpOverTunnel)
            && f.matchMetadata.valuePairFirst == Some(dpRl.routeLinkId)
            && f.writeMetadata.valuePairFirst == Some(dpRl.interfaceId)
            && f.cookie == RouteLinkCookie(L, dpRl.id)
    ensures var f := r[|flows|];
            && f.matchFields == map[] && f.actions == [] && f.idleTimeout.None?
            && f.matchMetadata == Metadata(None, None, Some(dpRl.routeLinkId), {})
            && f.writeMetadata == Metadata(None, None, Some(dpRl.interfaceId), {})
  {
    flows + [Flow(
      OutputDpRouteLinkSrc, 1, map[],
      Metadata(None, None, Some(dpRl.routeLinkId), {}), [],
      Metadata(None, None, Some(dpRl.interfaceId), {}),
      RouteLinkCookie(L, dpRl.id), None, Some(OutputDpOverTunnel))]
  }

  /** Distinct bindings get distinct cookies, so deleting one binding's
      stitching rule by cookie leaves every other binding's rule. */
  lemma RouteLinkCookieInjective(L: CookieLayout, a: bv64, b: bv64)
    requires Disjoint(L) && Fits(L, a) && Fits(L, b)
    requires RouteLinkCookie(L, a) == RouteLinkCookie(L, b)
    ensures a == b
  {
    assert IdOf(L, RouteLinkCookie(L, a)) == a;
    assert IdOf(L, RouteLinkCookie(L, b)) == b;
  }

  /** A stitching rule's cookie is never a connection cookie: it carries
      the route-link type, a connection cookie the connection-tracking type.
      So closing connections never removes a stitching rule, and the other
      way round. */
  lemma RouteLinkNeverConnection(L: CookieLayout, i: bv64, j: bv64)
    requires TypeFieldSeparate(L) && Fits(L, i) && Fits(L, j)
    ensures RouteLinkCookie(L, i) != Connections.Cookie(L, j)
  {
    TypesSeparateCookies(L.typeDpRouteLink, L.typeContrack, TagIngressConnection(L), i, j, L.idMask, L.typeMask);
  }

  /** Likewise a stitching rule's cookie is never a catch-flow cookie. */
  lemma RouteLinkNeverCatchFlow(L: CookieLayout, i: bv64, j: bv64)
    requires TypeFieldSeparate(L) && Fits(L, i) && Fits(L, j)
    ensures RouteLinkCookie(L, i) != ConnectionManager.CatchFlowCookie(L, j)
  {
    TypesSeparateCookies(L.typeDpRouteLink, L.typeContrack, TagCatchFlow(L), i, j, L.idMask, L.typeMask);
  }

  /** Route-link type `d` against connection-tracking type `c` with tag
      `g`; every field is a plain value, which keeps the bit-vector goal
      small for the solver. */
  lemma TypesSeparateCookies(d: bv64, c: bv64, g: bv64, i: bv64, j: bv64, idMask: bv64, typeMask: bv64)
    requires d & !typeMask == 0 && c & !typeMask == 0 && d != c
    requires g & typeMask == 0 && idMask & typeMask == 0
    requires i & !idMask == 0 && j & !idMask == 0
    ensures (i | d) != (c | g | j)
  {
    RouteLinkTyped(d, i, idMask, typeMask);
    ConnectionTyped(c, g, j, idMask, typeMask);
    MasksDiffer(i | d, c | g | j, typeMask);
  }

  lemma MasksDiffer(x: bv64, y: bv64, m: bv64)
    requires x & m != y & m
    ensures x != y
  {
  }
}

=== FILE: networks.dfy ===
/** `Networks::Virtual`: the static rule set of one virtual network, its
    flood rule and the two ovs-ofctl learn rules for ARP replies. */
module Networks {
  import opened Wrappers
  import opened OpenFlow
  import opened DpInfo

  /** What the network knows of one interface: its switch port, if any. */
  datatype InterfaceEntry = InterfaceEntry(portNumber: Option<nat>)

  /** `@id`, `@cookie`, `@broadcast_mac_address` and `@interfaces`; the
      interfaces hash is kept in insertion order, as Ruby hashes are. */
  datatype VirtualNetwork = VirtualNetwork(
    id: bv64,
    cookie: bv64,
    broadcastMac: Option<MacAddr>,
    interfaces: seq<(bv64, InterfaceEntry)>)

  /** `md_create(:network => id)`. */
  function NetworkMd(id: bv64): Metadata {
    Metadata(Some(id), None, None, {})
  }

  /** A rule with the network's `flow_options` (its cookie) and no idle
      timeout. */
  function NetFlow(net: VirtualNetwork, table: Table, priority: nat, m: Match, matchMd: Metadata,
                   actions: seq<Action>, writeMd: Metadata, goto: Option<Table>): (f: Flow)
    ensures f.cookie == net.cookie
  {
    Flow(table, priority, m, matchMd, actions, writeMd, net.cookie, None, goto)
  }

  /** Tunnel id to network metadata: `tunnel_id = @id | TUNNEL_FLAG_MASK`. */
  function TunnelFlow(net: VirtualNetwork, tunnelFlagMask: bv64): Flow {
    NetFlow(net, TunnelNetworkIds, 30, map[TunnelId := (net.id | tunnelFlagMask) as nat], NoMetadata,
            [], NetworkMd(net.id), Some(NetworkSrcClassifier))
  }

  function ClassifierFlow(net: VirtualNetwork, table: Table, goto: Table): Flow {
    NetFlow(net, table, 40, map[], NetworkMd(net.id), [], NoMetadata, Some(goto))
  }

  /** A priority-90 rule that stops broadcast traffic at a classifier. */
  function BroadcastFlow(net: VirtualNetwork, table: Table, field: MatchField, mac: MacAddr): Flow {
    NetFlow(net, table, 90, map[field := mac], NoMetadata, [], NoMetadata, None)
  }

  /** The rules `install` passes to `add_flows`, in order. */
  function StaticFlows(net: VirtualNetwork, tunnelFlagMask: bv64): (fs: seq<Flow>)
    ensures |fs| == if net.broadcastMac.Some? then 7 else 3
    ensures forall f | f in fs :: f.cookie == net.cookie && f.idleTimeout.None?
    ensures fs[0].table == TunnelNetworkIds
  {
    var base := [
      TunnelFlow(net, tunnelFlagMask),
      ClassifierFlow(net, NetworkSrcClassifier, VirtualSrc),
      ClassifierFlow(net, NetworkDstClassifier, VirtualDst)];
    match net.broadcastMac
    case None => base
    case Some(mac) => base + [
      BroadcastFlow(net, NetworkSrcClassifier, EthDst, mac),
      BroadcastFlow(net, NetworkSrcClassifier, EthSrc, mac),
      BroadcastFlow(net, NetworkDstClassifier, EthDst, mac),
      BroadcastFlow(net, NetworkDstClassifier, EthSrc, mac)]
  }

  /** `create_ovs_flow_learn_arp(priority, match_options, learn_options)`:
      `matchTunIdZero` stands for the "tun_id=0," match option and
      `loadTunId` for the option that copies the tunnel id into the learned
      rule. */
  function CreateOvsFlowLearnArp(net: VirtualNetwork, priority: nat, matchTunIdZero: bool, loadTunId: bool): (lf: LearnFlow)
    ensures lf.table == VirtualSrc && lf.gotoTable == RouteIngress && lf.priority == priority
    ensures lf.matchMetadata.network == Some(net.id) && lf.learned.metadata.network == Some(net.id)
    ensures lf.cookie == net.cookie && lf.learned.cookie == net.cookie
    ensures lf.learned.table == VirtualDst && lf.learned.idleTimeout == 36000 && lf.learned.priority == 35
    ensures lf.matchTunIdZero == matchTunIdZero && lf.learned.loadTunId == loadTunId
    ensures lf.matchMetadata.flags == {Remote} && lf.learned.metadata.flags == {Local, Vif}
    ensures lf.matchMetadata.interface.None? && lf.matchMetadata.valuePairFirst.None?
    ensures lf.learned.metadata.interface.None? && lf.learned.metadata.valuePairFirst.None?
  {
    LearnFlow(
      VirtualSrc, priority, net.cookie,
      Metadata(Some(net.id), None, None, {Remote}),
      matchTunIdZero,
      LearnedRule(VirtualDst, net.cookie, 36000, 35, Metadata(Some(net.id), None, None, {Local, Vif}), loadTunId),
      RouteIngress)
  }

  /** `install`: one `add_flows` with 3 rules, or 7 when a broadcast MAC is
      set, then the two learn rules, priority 83 before priority 81. */
  function Install(net: VirtualNetwork, tunnelFlagMask: bv64): (reqs: seq<Request>)
    ensures |reqs| == 3 && reqs[0].AddFlowsReq? && reqs[0].flows.Some?
    ensures |reqs[0].flows.value| == if net.broadcastMac.Some? then 7 else 3
    ensures forall f | f in reqs[0].flows.value :: f.cookie == net.cookie
    ensures reqs[1] == AddOvsFlowReq(CreateOvsFlowLearnArp(net, 83, true, false))
    ensures reqs[2] == AddOvsFlowReq(CreateOvsFlowLearnArp(net, 81, false, true))
  {
    [AddFlowsReq(Some(StaticFlows(net, tunnelFlagMask))),
     AddOvsFlowReq(CreateOvsFlowLearnArp(net, 83, true, false)),
     AddOvsFlowReq(CreateOvsFlowLearnArp(net, 81, false, true))]
  }

  /** The tunnel mapping rule decodes the network's tunnel id,
      `@id | TUNNEL_FLAG_MASK`, into network metadata and continues at source
      classification. */
  lemma TunnelFlowMapsNetwork(net: VirtualNetwork, tunnelFlagMask: bv64)
    ensures var f := StaticFlows(net, tunnelFlagMask)[0];
            && f.table == TunnelNetworkIds && f.priority == 30
            && f.matchFields.Keys == {TunnelId}
            && f.matchFields[TunnelId] == (net.id | tunnelFlagMask) as nat
            && f.writeMetadata == NetworkMd(net.id)
            && f.gotoTable == Some(NetworkSrcClassifier)
            && f.matchMetadata == NoMetadata && f.actions == [] && f.idleTimeout.None?
  {
    var t := (net.id | tunnelFlagMask) as nat;
    assert StaticFlows(net, tunnelFlagMask)[0].matchFields == map[TunnelId := t];
  }

  /** The two classifiers match the network's metadata at priority 40 and
      send its traffic on to virtual-source and virtual-destination
      processing respectively. */
  lemma ClassifierFlowsRouteNetwork(net: VirtualNetwork, tunnelFlagMask: bv64)
    ensures var flows := StaticFlows(net, tunnelFlagMask);
            && flows[1].table == NetworkSrcClassifier && flows[1].priority == 40
            && flows[1].matchMetadata.network == Some(net.id) && flows[1].gotoTable == Some(VirtualSrc)
            && flows[2].table == NetworkDstClassifier && flows[2].priority == 40
            && flows[2].matchMetadata.network == Some(net.id) && flows[2].gotoTable == Some(VirtualDst)
    ensures var flows := StaticFlows(net, tunnelFlagMask);
            forall k | 1 <= k < 3 ::
              && flows[k].matchMetadata == NetworkMd(net.id)
              && flows[k].matchFields == map[] && flows[k].actions == []
              && flows[k].writeMetadata == NoMetadata && flows[k].idleTimeout.None?
  {
  }

  /** The broadcast rules are exactly the four combinations of classifier
      table and MAC field, each matching the broadcast MAC at priority 90 with
      no action and no next table; without a broadcast MAC there are none. */
  lemma BroadcastFlowsAreTheFourCombinations(net: VirtualNetwork, tunnelFlagMask: bv64)
    ensures net.broadcastMac.None? ==> |StaticFlows(net, tunnelFlagMask)| == 3
    ensures var flows := StaticFlows(net, tunnelFlagMask);
            net.broadcastMac.Some? ==>
              && |flows| == 7
              && (forall k | 3 <= k < 7 ::
                    && flows[k].priority == 90 && flows[k].actions == [] && flows[k].gotoTable == None
                    && flows[k].matchMetadata == NoMetadata && flows[k].writeMetadata == NoMetadata)
              && (set k | 3 <= k < 7 :: (flows[k].table, flows[k].matchFields))
                 == BroadcastCombinations(net.broadcastMac.value)
  {
    if net.broadcastMac.Some? {
      var flows := StaticFlows(net, tunnelFlagMask);
      var mac := net.broadcastMac.value;
      assert flows[3..] == [
        BroadcastFlow(net, NetworkSrcClassifier, EthDst, mac),
        BroadcastFlow(net, NetworkSrcClassifier, EthSrc, mac),
        BroadcastFlow(net, NetworkDstClassifier, EthDst, mac),
        BroadcastFlow(net, NetworkDstClassifier, EthSrc, mac)];
      BroadcastTailCombinations(net, mac, flows);
    }
  }

  /** The four broadcast rules, looked at by themselves. */
  lemma BroadcastTailCombinations(net: VirtualNetwork, mac: MacAddr, flows: seq<Flow>)
    requires |flows| == 7
    requires flows[3..] == [
      BroadcastFlow(net, NetworkSrcClassifier, EthDst, mac),
      BroadcastFlow(net, NetworkSrcClassifier, EthSrc, mac),
      BroadcastFlow(net, NetworkDstClassifier, EthDst, mac),
      BroadcastFlow(net, NetworkDstClassifier, EthSrc, mac)]
    ensures forall k | 3 <= k < 7 ::
      && flows[k].priority == 90 && flows[k].actions == [] && flows[k].gotoTable == None
      && flows[k].matchMetadata == NoMetadata && flows[k].writeMetadata == NoMetadata
    ensures (set k | 3 <= k < 7 :: (flows[k].table, flows[k].matchFields)) == BroadcastCombinations(mac)
  {
    var got := set k | 3 <= k < 7 :: (flows[k].table, flows[k].matchFields);
    forall k | 3 <= k < 7
      ensures flows[k] == flows[3..][k - 3]
    {
    }
    assert (flows[3].table, flows[3].matchFields) in got;
    assert (flows[4].table, flows[4].matchFields) in got;
    assert (flows[5].table, flows[5].matchFields) in got;
    assert (flows[6].table, flows[6].matchFields) in got;
  }

  /** {source, destination classifier} x {`eth_dst`, `eth_src`} matching
      `mac`. */
  function BroadcastCombinations(mac: MacAddr): set<(Table, Match)> {
    { (NetworkSrcClassifier, map[EthDst := mac as nat]), (NetworkSrcClassifier, map[EthSrc := mac as nat]),
      (NetworkDstClassifier, map[EthDst := mac as nat]), (NetworkDstClassifier, map[EthSrc := mac as nat]) }
  }

  /** One output action per interface that has a port, in hash order;
      interfaces without a port contribute nothing. */
  function FloodActions(ifs: seq<(bv64, InterfaceEntry)>): (acts: seq<Action>)
    ensures |acts| <= |ifs|
    ensures forall p: nat :: Output(Physical(p)) in acts <==> exists i :: 0 <= i < |ifs| && ifs[i].1.portNumber == Some(p)
    ensures forall a | a in acts :: a.port.Physical?
  {
    if ifs == [] then []
    else
      var head := match ifs[0].1.portNumber
        case Some(p) => [Output(Physical(p))]
        case None => [];
      head + FloodActions(ifs[1..])
  }

  /** The flood rule: local flood table, priority 1, the network's metadata,
      the flood actions, then the segment flood table. */
  function FloodFlow(net: VirtualNetwork): Flow {
    NetFlow(net, FloodLocal, 1, map[], NetworkMd(net.id), FloodActions(net.interfaces), NoMetadata, Some(FloodSegment))
  }

  /** `update_flows`: exactly one rule, through one `add_flows`. */
  function UpdateFlows(net: VirtualNetwork): (reqs: seq<Request>)
    ensures |reqs| == 1 && reqs[0].AddFlowsReq? && reqs[0].flows.Some? && |reqs[0].flows.value| == 1
    ensures var f := reqs[0].flows.value[0];
            && f.table == FloodLocal && f.priority == 1 && f.gotoTable == Some(FloodSegment)
            && f.cookie == net.cookie && f.matchMetadata.network == Some(net.id)
            && f.actions == FloodActions(net.interfaces)
    ensures var f := reqs[0].flows.value[0];
            && f.matchFields == map[] && f.matchMetadata == NetworkMd(net.id)
            && f.idleTimeout.None? && f.writeMetadata == NoMetadata
  {
    [AddFlowsReq(Some([FloodFlow(net)]))]
  }

  /** Flooding over two runs of interfaces is flooding over the first run,
      then over the second: the actions keep the hash order. */
  lemma {:induction false} FloodActionsConcat(a: seq<(bv64, InterfaceEntry)>, b: seq<(bv64, InterfaceEntry)>)
    ensures FloodActions(a + b) == FloodActions(a) + FloodActions(b)
    decreases |a|
  {
    if a == [] {
      assert a + b == b;
    } else {
      assert (a + b)[0] == a[0];
      assert (a + b)[1..] == a[1..] + b;
      FloodActionsConcat(a[1..], b);
    }
  }

  /** Positions of the interfaces that have a port. */
  function PortedIndices(ifs: seq<(bv64, InterfaceEntry)>): set<nat> {
    set i: nat | i < |ifs| && ifs[i].1.portNumber.Some?
  }

  /** The flood rule has exactly as many actions as there are interfaces
      with a port. */
  lemma {:induction false} FloodActionCount(ifs: seq<(bv64, InterfaceEntry)>)
    ensures |FloodActions(ifs)| == |PortedIndices(ifs)|
    decreases |ifs|
  {
    if ifs != [] {
      var init, last := ifs[..|ifs| - 1], ifs[|ifs| - 1];
      assert ifs == init + [last];
      FloodActionsConcat(init, [last]);
      FloodActionCount(init);
      FloodActionsOfOne(last);
      PortedIndicesSnoc(init, last);
    }
  }

  /** One interface floods to one port when it has one, else to none. */
  lemma FloodActionsOfOne(e: (bv64, InterfaceEntry))
    ensures |FloodActions([e])| == if e.1.portNumber.Some? then 1 else 0
  {
    assert [e][1..] == [];
  }

  /** Appending an interface adds its position to the ported positions
      exactly when it has a port. */
  lemma PortedIndicesSnoc(init: seq<(bv64, InterfaceEntry)>, last: (bv64, InterfaceEntry))
    ensures |PortedIndices(init + [last])| == |PortedIndices(init)| + if last.1.portNumber.Some? then 1 else 0
  {
    var ifs := init + [last];
    assert forall i: nat | i < |init| :: ifs[i] == init[i];
    assert ifs[|init|] == last;
    if last.1.portNumber.Some? {
      assert PortedIndices(ifs) == PortedIndices(init) + {|init|};
      assert |init| !in PortedIndices(init);
    } else {
      assert PortedIndices(ifs) == PortedIndices(init);
    }
  }
}

=== FILE: openflow.dfy ===
/** The OpenFlow 1.3 vocabulary the controller builds rules from: pipeline
    tables, ports, match fields, packet metadata, actions and the rule record
    itself. Table and cookie numbers are configuration outside the modelled
    files, so tables are named by role only. */
module OpenFlow {
  import opened Wrappers

  type MacAddr = n: nat | n < 0x1_0000_0000_0000
  type Ipv4Addr = n: nat | n < 0x1_0000_0000

  /** Pipeline stages, named after the `TABLE_*` constants. */
  datatype Table =
    | TunnelNetworkIds
    | NetworkSrcClassifier
    | NetworkDstClassifier
    | VirtualSrc
    | VirtualDst
    | RouteIngress
    | FloodLocal
    | FloodSegment
    | InterfaceEgressFilter
    | InterfaceIngressFilterLookup
    | OutputInterfaceIngress
    | OutputDpRouteLinkSrc
    | OutputDpOverTunnel

  /** Output ports: a switch port number or one of the reserved ports
      OFPP_TABLE, OFPP_CONTROLLER and OFPP_ANY. */
  datatype PortNo = Physical(number: nat) | TablePort | ControllerPort | AnyPort

  /** Table selector of a flow-mod: one table or OFPTT_ALL. */
  datatype TableSelector = OneTable(table: Table) | AllTables

  /** Group selector of a flow-mod; only OFPG_ANY is used. */
  datatype GroupSelector = AnyGroup

  datatype MatchField =
    | EthSrc | EthDst | EthType | Ipv4Src | Ipv4Dst | IpProto
    | TcpSrc | TcpDst | UdpSrc | UdpDst | TunnelId

  /** A match is a set of field/value pairs. Ruby's `Hash#merge` is `+` on
      maps: on a shared key the right operand wins. */
  type Match = map<MatchField, nat>

  /** Flag bits of the packet metadata register (`md_create(remote: nil)` and
      the like). */
  datatype MdFlag = Remote | Local | Vif

  /** Packet metadata as `md_create` composes it: optional network id,
      interface id and first value-pair field, plus flag bits. */
  datatype Metadata = Metadata(
    network: Option<bv64>,
    interface: Option<bv64>,
    valuePairFirst: Option<bv64>,
    flags: set<MdFlag>)

  const NoMetadata: Metadata := Metadata(None, None, None, {})

  datatype Action = Output(port: PortNo)

  /** One pipeline rule. `actions` is empty both when the source passes `nil`
      and when it passes `{}`: neither applies any action. */
  datatype Flow = Flow(
    table: Table,
    priority: nat,
    matchFields: Match,
    matchMetadata: Metadata,
    actions: seq<Action>,
    writeMetadata: Metadata,
    cookie: bv64,
    idleTimeout: Option<nat>,
    gotoTable: Option<Table>)

  /** The rule the Open vSwitch `learn` action synthesises: it matches the
      observed packet's source MAC as destination and the given metadata
      value, optionally loads the packet's tunnel id, and outputs to the port
      the observed packet came in on. */
  datatype LearnedRule = LearnedRule(
    table: Table,
    cookie: bv64,
    idleTimeout: nat,
    priority: nat,
    metadata: Metadata,
    loadTunId: bool)

  /** A rule given to ovs-ofctl as text because the OpenFlow 1.3 pipeline
      cannot express it: it matches ARP packets with the given metadata (and
      tunnel id 0 when `matchTunIdZero`), learns `learned`, then continues at
      `gotoTable`. */
  datatype LearnFlow = LearnFlow(
    table: Table,
    priority: nat,
    cookie: bv64,
    matchMetadata: Metadata,
    matchTunIdZero: bool,
    learned: LearnedRule,
    gotoTable: Table)

  /** EtherType of IPv4 (IEEE 802 numbering). */
  const EthTypeIpv4: nat := 0x0800
  /** IP protocol numbers of TCP and UDP (IANA assigned numbers). */
  const IpProtoTcp: nat := 6
  const IpProtoUdp: nat := 17

  /** The cookie mask that compares every bit. */
  const FullCookieMask: bv64 := 0xffff_ffff_ffff_ffff

  datatype Protocol = Tcp | Udp | OtherProtocol(number: nat)

  /** The fields of a packet-in the connection tracker reads. */
  datatype PacketIn = PacketIn(
    cookie: bv64,
    ethSrc: MacAddr,
    ethType: nat,
    ipv4Src: Ipv4Addr,
    ipv4Dst: Ipv4Addr,
    protocol: Protocol,
    srcPort: nat,
    dstPort: nat)

  /** A flow-mod with `(cookie, mask)` selects exactly the rules whose cookie
      agrees with `cookie` on the bits of `mask` (section A.3.4.1 of the
      OpenFlow 1.3.0 switch specification). */
  predicate CookieSelects(cookie: bv64, mask: bv64, ruleCookie: bv64) {
    ruleCookie & mask == cookie & mask
  }

  /** With the full mask the selection is exact equality. */
  lemma FullMaskSelectsExactly(cookie: bv64, ruleCookie: bv64)
    ensures CookieSelects(cookie, FullCookieMask, ruleCookie) <==> ruleCookie == cookie
  {
  }
}

=== FILE: scenarios.dfy ===
/** End-to-end behaviour: what the managers' requests become in the
    datapath's outgoing message log. */
module Scenarios {
  import opened Wrappers
  import opened OpenFlow
  import opened Cookies
  import opened DpInfo
  import Connections
  import ConnectionManager
  import Networks
  import opened DatapathActor

  lemma ApplyOne(dp: Datapath, a: Request)
    ensures ApplyAll(dp, [a]) == Apply(dp, a)
  {
    assert [a][1..] == [];
  }

  lemma ApplyTwo(dp: Datapath, a: Request, b: Request)
    ensures ApplyAll(dp, [a, b]) == Apply(Apply(dp, a), b)
  {
    assert [a, b][1..] == [b];
    ApplyOne(Apply(dp, a), b);
  }

  /** A packet-in ends with exactly one packet-out to OFPP_TABLE, sent after
      the connection's flow-mods: two for TCP and UDP, none for any other
      protocol. */
  lemma OpenConnectionMessages(L: CookieLayout, tcp: Connections.Matcher, udp: Connections.Matcher,
                               msg: PacketIn, dp: Datapath)
    requires ConnectionManager.OpenConnection(L, tcp, udp, msg).Success?
    ensures var r := ApplyAll(dp, ConnectionManager.OpenConnection(L, tcp, udp, msg).value);
            var flows := match msg.protocol
              case Tcp => Connections.Open(L, tcp, msg).value
              case Udp => Connections.Open(L, udp, msg).value
              case OtherProtocol(_) => [];
            && r.sent == dp.sent + FlowModAdds(dp.dpid, flows) + [PacketOut(dp.dpid, msg, TablePort)]
            && |r.sent| == |dp.sent| + (if msg.protocol.OtherProtocol? then 1 else 3)
            && r.ovsFlows == dp.ovsFlows
  {
    var reqs := ConnectionManager.OpenConnection(L, tcp, udp, msg).value;
    ApplyTwo(dp, reqs[0], reqs[1]);
    assert reqs == [reqs[0], reqs[1]];
  }

  /** `close_connections` sends one delete, over all tables, whose default
      full mask selects exactly the interface's connection rules: no other
      interface's, and no catch-flow. */
  lemma CloseConnectionsSelectsOnlyConnections(L: CookieLayout, interfaceId: bv64, dp: Datapath)
    requires Disjoint(L) && Fits(L, interfaceId)
    ensures var c := Connections.Cookie(L, interfaceId);
            ApplyAll(dp, ConnectionManager.CloseConnections(L, interfaceId)).sent
              == dp.sent + [FlowModDelete(dp.dpid, AllTables, AnyPort, AnyGroup, c, FullCookieMask)]
    ensures forall j | Fits(L, j) ::
              CookieSelects(Connections.Cookie(L, interfaceId), FullCookieMask, Connections.Cookie(L, j)) <==> j == interfaceId
    ensures forall j | Fits(L, j) ::
              !CookieSelects(Connections.Cookie(L, interfaceId), FullCookieMask, ConnectionManager.CatchFlowCookie(L, j))
  {
    ApplyOne(dp, ConnectionManager.CloseConnections(L, interfaceId)[0]);
    forall j | Fits(L, j)
      ensures CookieSelects(Connections.Cookie(L, interfaceId), FullCookieMask, Connections.Cookie(L, j)) <==> j == interfaceId
      ensures !CookieSelects(Connections.Cookie(L, interfaceId), FullCookieMask, ConnectionManager.CatchFlowCookie(L, j))
    {
      FullMaskSelectsExactly(Connections.Cookie(L, interfaceId), Connections.Cookie(L, j));
      FullMaskSelectsExactly(Connections.Cookie(L, interfaceId), ConnectionManager.CatchFlowCookie(L, j));
      ConnectionManager.CatchFlowNeverConnection(L, j, interfaceId);
    }
  }

  /** `remove_catch_new_egress` sends one delete whose full mask selects
      exactly this interface's catch-flows: no other interface's, and never
      a connection rule. */
  lemma RemoveCatchSelectsOnlyCatchFlows(L: CookieLayout, interfaceId: bv64, dp: Datapath)
    requires Disjoint(L) && Fits(L, interfaceId)
    ensures var c := ConnectionManager.CatchFlowCookie(L, interfaceId);
            ApplyAll(dp, ConnectionManager.RemoveCatchNewEgress(L, interfaceId)).sent
              == dp.sent + [FlowModDelete(dp.dpid, AllTables, AnyPort, AnyGroup, c, FullCookieMask)]
    ensures forall j | Fits(L, j) ::
              CookieSelects(ConnectionManager.CatchFlowCookie(L, interfaceId), FullCookieMask, ConnectionManager.CatchFlowCookie(L, j))
              <==> j == interfaceId
    ensures forall j ::
              !CookieSelects(ConnectionManager.CatchFlowCookie(L, interfaceId), FullCookieMask, Connections.Cookie(L, j))
  {
    forall j | Fits(L, j)
      ensures CookieSelects(ConnectionManager.CatchFlowCookie(L, interfaceId), FullCookieMask, ConnectionManager.CatchFlowCookie(L, j))
              <==> j == interfaceId
    {
      FullMaskSelectsExactly(ConnectionManager.CatchFlowCookie(L, interfaceId), ConnectionManager.CatchFlowCookie(L, j));
      if ConnectionManager.CatchFlowCookie(L, interfaceId) == ConnectionManager.CatchFlowCookie(L, j) {
        ConnectionManager.CatchFlowCookieInjective(L, interfaceId, j);
      }
    }
    ApplyOne(dp, ConnectionManager.RemoveCatchNewEgress(L, interfaceId)[0]);
    forall j
      ensures !CookieSelects(ConnectionManager.CatchFlowCookie(L, interfaceId), FullCookieMask, Connections.Cookie(L, j))
    {
      FullMaskSelectsExactly(ConnectionManager.CatchFlowCookie(L, interfaceId), Connections.Cookie(L, j));
      ConnectionManager.CatchFlowNeverConnection(L, interfaceId, j);
    }
  }

  /** An interface without security groups changes nothing on the switch;
      one with groups gets its two catch-flows, TCP first. */
  lemma CatchNewEgressMessages(L: CookieLayout, interfaceId: bv64, mac: MacAddr, groups: nat, dp: Datapath)
    ensures groups == 0 ==> ApplyAll(dp, ConnectionManager.CatchNewEgress(L, interfaceId, mac, groups)) == dp
    ensures groups > 0 ==>
      ApplyAll(dp, ConnectionManager.CatchNewEgress(L, interfaceId, mac, groups)).sent
        == dp.sent + [FlowModAdd(dp.dpid, ConnectionManager.CatchFlow(L, interfaceId, mac, IpProtoTcp)),
                      FlowModAdd(dp.dpid, ConnectionManager.CatchFlow(L, interfaceId, mac, IpProtoUdp))]
  {
    if groups > 0 {
      ApplyOne(dp, ConnectionManager.CatchNewEgress(L, interfaceId, mac, groups)[0]);
    }
  }

  /** Installing a virtual network sends 3 or 7 flow-mods and hands two
      learn rules to ovs-ofctl. */
  lemma InstallMessages(net: Networks.VirtualNetwork, tunnelFlagMask: bv64, dp: Datapath)
    ensures var r := ApplyAll(dp, Networks.Install(net, tunnelFlagMask));
            && r.sent == dp.sent + FlowModAdds(dp.dpid, Networks.StaticFlows(net, tunnelFlagMask))
            && |r.sent| == |dp.sent| + (if net.broadcastMac.Some? then 7 else 3)
            && r.ovsFlows == dp.ovsFlows + [Networks.CreateOvsFlowLearnArp(net, 83, true, false),
                                            Networks.CreateOvsFlowLearnArp(net, 81, false, true)]
  {
    var reqs := Networks.Install(net, tunnelFlagMask);
    assert reqs == [reqs[0]] + [reqs[1], reqs[2]];
    ApplyAllConcat(dp, [reqs[0]], [reqs[1], reqs[2]]);
    ApplyOne(dp, reqs[0]);
    ApplyTwo(Apply(dp, reqs[0]), reqs[1], reqs[2]);
  }

  /** `update_flows` sends exactly one flow-mod: the flood rule. */
  lemma UpdateFlowsMessages(net: Networks.VirtualNetwork, dp: Datapath)
    ensures ApplyAll(dp, Networks.UpdateFlows(net)).sent == dp.sent + [FlowModAdd(dp.dpid, Networks.FloodFlow(net))]
  {
    ApplyOne(dp, Networks.UpdateFlows(net)[0]);
  }

  /** A TCP packet-in punted by interface `interfaceId`'s catch-flow: two
      flow-mods tagged with that interface's connection cookie, egress
      expiring after 550 and ingress after 600, then the packet-out. */
  lemma TcpFirstPacket(L: CookieLayout, tcp: Connections.Matcher, udp: Connections.Matcher,
                       interfaceId: bv64, msg: PacketIn, dp: Datapath)
    requires Disjoint(L) && Fits(L, interfaceId)
    requires msg.cookie == ConnectionManager.CatchFlowCookie(L, interfaceId) && msg.protocol == Tcp
    requires tcp.matchEgress(msg).Success? && tcp.matchIngress(msg).Success?
    ensures ConnectionManager.OpenConnection(L, tcp, udp, msg).Success?
    ensures var r := ApplyAll(dp, ConnectionManager.OpenConnection(L, tcp, udp, msg).value);
            && |r.sent| == |dp.sent| + 3
            && r.sent[|dp.sent|].FlowModAdd? && r.sent[|dp.sent| + 1].FlowModAdd?
            && r.sent[|dp.sent|].flow.cookie == Connections.Cookie(L, interfaceId)
            && r.sent[|dp.sent| + 1].flow.cookie == Connections.Cookie(L, interfaceId)
            && r.sent[|dp.sent|].flow.idleTimeout == Some(550)
            && r.sent[|dp.sent| + 1].flow.idleTimeout == Some(600)
            && r.sent[|dp.sent| + 2] == PacketOut(dp.dpid, msg, TablePort)
  {
    var flows := Connections.Open(L, tcp, msg).value;
    OpenConnectionMessages(L, tcp, udp, msg, dp);
    ConnectionManager.CatchFlowOpensConnection(L, tcp, interfaceId, msg);
    assert flows[0] in flows && flows[1] in flows;
    var r := ApplyAll(dp, ConnectionManager.OpenConnection(L, tcp, udp, msg).value);
    assert r.sent[|dp.sent|] == FlowModAdds(dp.dpid, flows)[0];
    assert r.sent[|dp.sent| + 1] == FlowModAdds(dp.dpid, flows)[1];
  }
}

=== FILE: wrappers.dfy ===
/** `Option` for Ruby's `nil`-or-value, `Result` for calls that may
    raise. */
module Wrappers {

  datatype Option<+T> = None | Some(value: T)

  datatype Result<+T, +E> = Success(value: T) | Failure(error: E)
}
